=== FILE: README.md ===
# Route Target encoders and LDP log helpers

A Dafny model of two small pure cores of the FRR routing suite:

- **BGP extended communities** (`bgpd/bgp_ecommunity.h`). This covers the type and sub-type constants, the 8-octet `struct ecommunity_val`, and `struct ecommunity` with `ecom_length`. It also covers the three inline Route Target encoders: Two-Octet AS, IPv4 address and Four-Octet AS, in the layouts of RFC 4360 and RFC 5668. Each encoder takes the caller's previous buffer and returns the new 8 octets. A decoder is defined as the encoders' partner. The model proves both round trips, the 16-bit truncation of the AS number in the Two-Octet form, and that the three encoders never produce the same value.
- **LDP log helpers** (`ldpd/log.c`). This covers:
  - `log_label` and `log_time`, with their static ring of four buffers;
  - the round bookkeeping of `log_addr` and `log_sockaddr`, including the `"???"` and `"(unknown)"` fallbacks;
  - the name tables `af_name`, `socket_name`, `nbr_state_name`, `if_state_name`, `if_type_name`, `msg_name`, `status_code_name` and `pw_type_name`, with their `"UNKNOWN"` and bracketed-hex fallbacks.

  The texts of `log_label`, `log_time`, `msg_name`, `status_code_name` and `pw_type_name` each get a parser as their partner, and the model proves that the text reads back. The `"UNKNOWN"` tables are characterised instead: `"UNKNOWN"` is returned exactly for the unlisted codes, and the listed codes have distinct names. The text of `log_addr` and `log_sockaddr` comes from the C library and is abstracted to the ring buffer that holds it.

Modules:

- `CTypes` (`ctypes.dfy`): machine integer widths.
- `Options` (`options.dfy`): an option type.
- `Digits` (`digits.dfy`): the printf conversions `%u`, `%0Nu`, `%08x` and `%0x`, with their parser.
- `Ecommunity` (`ecommunity.dfy`).
- `LogRing` (`ring.dfy`): the static ring indices.
- `LdpNames` (`ldp_names.dfy`): the name tables.
- `LdpLog` (`ldp_log.dfy`): `log_label`, `log_time` and `log_addr`.

A static ring index in C becomes an explicit argument and an explicit result in the model. A call into the C library (`inet_ntop`, `getnameinfo`) becomes a boolean argument saying whether it succeeded.

Some constants are used by the code but defined in headers that are not part of this model: `ldpd/ldp.h`, `ldpd/ldpd.h`, `lib/mpls.h` and the socket headers. Protocol codes take the values of the standards they implement:

- message types and the other status codes: RFC 5036, RFC 5561 and RFC 7552;
- the pseudowire status codes 0x24 to 0x2B and the pseudowire types: RFC 4447;
- reserved labels: section 2.1 of RFC 3032.

The other codes are fixed by no standard:

- address families: a Linux build (`AF_INET` 2, `AF_INET6` 10, `AF_MPLS` 28);
- `NO_LABEL`: ldpd's marker for "no label", `UINT32_MAX` (0xffffffff);
- sockets: ldpd's enum, `LDP_SOCKET_DISC` 0, `LDP_SOCKET_EDISC` 1, `LDP_SOCKET_SESSION` 2;
- neighbor states: ldpd's flags, `NBR_STA_PRESENT` 0x01, `NBR_STA_INITIAL` 0x02, `NBR_STA_OPENREC` 0x04, `NBR_STA_OPENSENT` 0x08, `NBR_STA_OPER` 0x10;
- interface states: ldpd's flags, `IF_STA_DOWN` 0x01, `IF_STA_ACTIVE` 0x02;
- interface types: ldpd's enum, `IF_TYPE_POINTOPOINT` 0, `IF_TYPE_BROADCAST` 1.

## Model

| member | source | states |
|---|---|---|
| Ecommunity.EncodeRouteTargetAs | bgpd/bgp_ecommunity.h:82-94 | Type octet 0x00 and sub-type 0x02. Octets 2-3 hold the AS number modulo 2^16, big-endian. Octets 4-7 hold the 32-bit value, big-endian. The non-transitive flag 0x40 is clear. |
| Ecommunity.EncodeRouteTargetIp | bgpd/bgp_ecommunity.h:99-108 | Type octet 0x01 and sub-type 0x02. Octets 2-5 are the address octets as stored. Octets 6-7 hold the 16-bit value, big-endian. The result is transitive. |
| Ecommunity.EncodeRouteTargetAs4 | bgpd/bgp_ecommunity.h:113-125 | Type octet 0x02 and sub-type 0x02. Octets 2-5 hold the 32-bit AS number, big-endian. Octets 6-7 hold the 16-bit value. The result is transitive. |
| Ecommunity.OctetsBe16 | bgpd/bgp_ecommunity.h:106-107 | The two shift-and-mask octets of x, most significant first, read back big-endian as x modulo 2^16. |
| Ecommunity.OctetsBe32 | bgpd/bgp_ecommunity.h:119-122 | The four shift-and-mask octets of a 32-bit x, most significant first, read back big-endian as x. |
| Ecommunity.OctetsOf16 | bgpd/bgp_ecommunity.h:88-89 | The octets `(x >> 8) & 0xff` and `x & 0xff` read back as x modulo 2^16. |
| Ecommunity.OctetsOf32 | bgpd/bgp_ecommunity.h:119-122 | The four shifted octets of a 32-bit number read back as that number. |
| Ecommunity.DecodeRouteTarget | bgpd/bgp_ecommunity.h:25-32 | A value decodes exactly when its sub-type is Route Target and its type is one of the three encodings. The decoded form follows the type octet. |
| Ecommunity.EncodeRouteTarget | bgpd/bgp_ecommunity.h:82-125 | The result is a transitive Route Target, and its type octet names the encoding used. |
| Ecommunity.Be16Injective | bgpd/bgp_ecommunity.h:106-107 | Two octets are determined by the 16-bit number they encode. |
| Ecommunity.Be32Injective | bgpd/bgp_ecommunity.h:90-93 | Four octets are determined by the 32-bit number they encode. |
| Ecommunity.DecodeEncodeAs | bgpd/bgp_ecommunity.h:82-94 | Decoding a Two-Octet AS Route Target gives back the AS modulo 2^16 and the exact value. |
| Ecommunity.DecodeEncodeIp | bgpd/bgp_ecommunity.h:99-108 | Decoding an IPv4 Route Target gives back the address and the value. |
| Ecommunity.DecodeEncodeAs4 | bgpd/bgp_ecommunity.h:113-125 | Decoding a Four-Octet AS Route Target gives back the AS and the value. |
| Ecommunity.DecodeEncode | bgpd/bgp_ecommunity.h:25-32 | Every typed Route Target survives encode then decode. |
| Ecommunity.EncodeDecode | bgpd/bgp_ecommunity.h:25-32 | Every 8-octet value the decoder accepts is exactly what the matching encoder writes for the decoded fields. |
| Ecommunity.EncodersOverwriteBuffer | bgpd/bgp_ecommunity.h:86-124 | All eight octets are assigned, so each encoder's result does not depend on the previous buffer. |
| Ecommunity.AsEncodingTruncates | bgpd/bgp_ecommunity.h:88-89 | Two Two-Octet AS encodings are equal exactly when the AS numbers agree modulo 2^16 and the values are equal. |
| Ecommunity.As4EncodingInjective | bgpd/bgp_ecommunity.h:117-124 | Two Four-Octet AS encodings are equal exactly when both the AS numbers and the values are equal. |
| Ecommunity.EncodersDistinct | bgpd/bgp_ecommunity.h:86-117 | The three encoders write different type octets, so their results never coincide, whatever buffers they are given. |
| Ecommunity.EcomLength | bgpd/bgp_ecommunity.h:77 | `ecom_length` is always a multiple of ECOMMUNITY_SIZE, and for a well-formed attribute it equals the octet count. |
| Ecommunity.Concat | bgpd/bgp_ecommunity.h:64-65 | The octets of n values number n times ECOMMUNITY_SIZE. |
| Ecommunity.Split | bgpd/bgp_ecommunity.h:49-50 | A multiple of 8 octets cuts into values whose concatenation gives the octets back. |
| Ecommunity.SplitConcat | bgpd/bgp_ecommunity.h:72-75 | Cutting the concatenation of values gives the same values back. |
| Ecommunity.Values | bgpd/bgp_ecommunity.h:56-77 | A well-formed attribute holds `size` values, its octets are their concatenation, and `ecom_length` equals that octet count. |
| Digits.Render | ldpd/log.c:254 | `%u` / `%x` text is non-empty, all digits, and starts with '0' only for zero. |
| Digits.Padded | ldpd/log.c:285-289 | `%0Nu` text is at least N characters, all digits. Text wider than the field has no leading zero, so a number wider than N is printed unpadded. |
| Digits.ValueOfRender | ldpd/log.c:254 | The minimal rendering denotes the number. |
| Digits.RenderLength | ldpd/log.c:254 | A number below base^k renders in at most k digits. |
| Digits.ValueOfLeadingZeros | ldpd/log.c:285 | Zero padding does not change the value denoted. |
| Digits.ParsePadded | ldpd/log.c:285-289 | Padded text parses back to the number. |
| Digits.PaddedLength | ldpd/log.c:289 | A number below base^N pads to exactly N characters. |
| Digits.ParseRender | ldpd/log.c:254 | Minimal text parses back to the number. |
| LogRing.TakeSlot | ldpd/log.c:238-240 | The buffer used is the current index, and the index becomes (idx + 1) mod TF_BUFS, which is the increment-then-reset-to-zero of the C code. |
| LogRing.AdvanceRound | ldpd/log.c:163 | The round moves exactly one step: it becomes round + 1, or 0 after the last buffer, so it stays in the ring and always changes. |
| LogRing.SlotsTaken | ldpd/log.c:238-240 | A run of k slot takes yields k buffers in the ring, the first being the current index. |
| LogRing.SlotsTakenCycle | ldpd/log.c:269-271 | The i-th consecutive `log_label`/`log_time` call uses buffer (idx + i) mod 4. |
| LogRing.RoundsUsed | ldpd/log.c:159-163 | A run of k round advances yields k buffers in the ring, the first being the round after the current one. |
| LogRing.RoundsUsedCycle | ldpd/log.c:214 | The i-th of consecutive IPv4 `log_addr` calls, or of consecutive `log_sockaddr` calls, uses buffer (round + 1 + i) mod 4. IPv6 `log_addr` calls move the `log_sockaddr` round instead, and other families move neither. |
| LogRing.FourSlotsThenReuse | ldpd/log.c:235-240 | Four consecutive results occupy four distinct buffers, and the fifth call reuses the first buffer. |
| LogRing.FourRoundsThenReuse | ldpd/log.c:159-163 | The same holds for consecutive IPv4 `log_addr` calls, or consecutive `log_sockaddr` calls. |
| LdpLog.LabelText | ldpd/log.c:242-256 | A label's text is 1 to 10 characters. |
| LdpLog.LogLabel | ldpd/log.c:231-259 | The label's text goes in the current ring buffer, the index becomes (idx + 1) mod 4, and the text is under TF_LEN, so snprintf never cuts it. |
| LdpLog.LogLabels | ldpd/log.c:231-259 | A run of `log_label` calls yields one result per label and leaves the index advanced by the number of calls, modulo 4. |
| LdpLog.LogLabelsSlots | ldpd/log.c:238-240 | The i-th call of a run writes the text of label i into buffer (idx + i) mod 4. |
| LdpLog.FourLabelsThenReuse | ldpd/log.c:235-240 | Of five consecutive `log_label` calls, the first four texts sit in four distinct buffers, and the fifth overwrites the first. |
| LdpLog.LabelTextSpec | ldpd/log.c:242-256 | "-" is produced if and only if the label is NO_LABEL. "imp-null" is produced if and only if it is implicit null. "exp-null" is produced if and only if it is one of the two explicit nulls. Every other label is printed in decimal with no leading zero, as `%u` prints it. |
| LdpLog.LabelTextRoundTrip | ldpd/log.c:242-256 | Each label reads back from its text, except that IPv6 explicit null reads back as IPv4 explicit null. |
| LdpLog.Decompose | ldpd/log.c:273-282 | Seconds and minutes are below 60, hours below 24, days below 7, and weeks at most 7101. Together they rebuild `t` modulo 2^32. |
| LdpLog.TimeText | ldpd/log.c:284-289 | The day and clock forms are exactly 8 characters, and every form is 8 to 10. |
| LdpLog.LogTime | ldpd/log.c:261-292 | The text goes in the current ring buffer, the index becomes (idx + 1) mod 4, and the text is under TF_LEN. |
| LdpLog.SmallFieldWidths | ldpd/log.c:285-289 | `%02u` of seconds, minutes and hours, and `%01u` of days, each have exactly the field width. |
| LdpLog.TimeTextRoundTrip | ldpd/log.c:284-289 | The text parses back to exactly the fields its format shows: weeks/days/hours when there are weeks, else days/hours/minutes when there are days, else hours/minutes/seconds. |
| LdpLog.ClockShowsWholeDuration | ldpd/log.c:288-289 | Under a day, the clock form is chosen, and its fields rebuild `t` modulo 2^32. |
| LdpLog.LogSockaddr | ldpd/log.c:156-170 | The round becomes (round + 1) mod 4 before the lookup. On failure the result is "(unknown)"; otherwise it is the new round's buffer. |
| LdpLog.LogAddr | ldpd/log.c:206-226 | "???" is returned if and only if the family is neither IPv4 nor IPv6, or IPv4 formatting fails. IPv4 advances only the address round, by one, and on success returns that round's buffer. IPv6 leaves the address round alone and returns exactly what `log_sockaddr` returns. Any other family changes no state. |
| LdpNames.BracketHex | ldpd/log.c:500 | `[%08x]` / `[%0x]` text is at least width + 2 characters, starts with '[' and ends with ']'. |
| LdpNames.BracketHexRoundTrip | ldpd/log.c:500 | `[%08x]` / `[%0x]` text starts with '[' and parses back to the code. |
| LdpNames.BracketHex8Length | ldpd/log.c:500 | `[%08x]` of a 32-bit code is exactly 10 characters. |
| LdpNames.AfName | ldpd/log.c:393-408 | "UNKNOWN" is returned if and only if the family is not IPv4, IPv6 or MPLS. |
| LdpNames.SocketName | ldpd/log.c:410-423 | "UNKNOWN" is returned if and only if the type is not one of the three sockets. |
| LdpNames.NbrStateName | ldpd/log.c:425-442 | "UNKNOWN" is returned if and only if the state is not one of the five neighbor states. |
| LdpNames.IfStateName | ldpd/log.c:444-455 | "UNKNOWN" is returned if and only if the state is not DOWN or ACTIVE. |
| LdpNames.IfTypeName | ldpd/log.c:457-468 | "UNKNOWN" is returned if and only if the type is not POINTOPOINT or BROADCAST. |
| LdpNames.MsgName | ldpd/log.c:470-503 | The text starts with '[' if and only if the message type is unnamed, and then it is 10 characters, within the 16-octet buffer. |
| LdpNames.StatusCodeName | ldpd/log.c:505-589 | An unnamed status gives a 10-character bracketed text, within the 16-octet buffer. |
| LdpNames.PwTypeName | ldpd/log.c:591-605 | The text starts with '[' if and only if the type is not Ethernet or tagged Ethernet, and it is at most 10 characters, within the 64-octet buffer. |
| LdpNames.AfNameSpec | ldpd/log.c:393-408 | "UNKNOWN" is returned if and only if the family is not IPv4, IPv6 or MPLS. Distinct known families have distinct names. |
| LdpNames.SocketNameSpec | ldpd/log.c:410-423 | "UNKNOWN" is returned if and only if the type is not one of the three sockets. Known names are distinct. |
| LdpNames.NbrStateNameSpec | ldpd/log.c:425-442 | "UNKNOWN" is returned if and only if the state is not one of the five neighbor states. Known names are distinct. |
| LdpNames.IfStateNameSpec | ldpd/log.c:444-455 | "UNKNOWN" is returned if and only if the state is not DOWN or ACTIVE. Known names are distinct. |
| LdpNames.IfTypeNameSpec | ldpd/log.c:457-468 | "UNKNOWN" is returned if and only if the type is not POINTOPOINT or BROADCAST. Known names are distinct. |
| LdpNames.MsgNameSpec | ldpd/log.c:470-503 | The bracketed-hex form is used if and only if the message type is unnamed. That form is 10 characters. The message type always reads back from its name. |
| LdpNames.LabelAbortRequestIsHex | ldpd/log.c:498-501 | Label Abort Request falls through to the hex form "[00000404]". |
| LdpNames.StatusCodeNameSpec | ldpd/log.c:505-589 | The bracketed-hex form is used if and only if the status is unnamed. It is 10 characters and parses back to the status. |
| LdpNames.StatusCodeNameRoundTrip | ldpd/log.c:505-589 | Every status code, named or not, reads back from its text, so no two codes share a name. |
| LdpNames.PwTypeNameSpec | ldpd/log.c:591-605 | The bracketed form is used if and only if the type is not Ethernet or tagged Ethernet. Its `%0x` digits carry no leading zero, except for type 0. The type always reads back from its name. |

## Left out

- `ecommunity_init` … `ecommunity_strip` (bgpd/bgp_ecommunity.h:127-149) are only declared there. Their bodies are not part of this model.
- `vlog`, the `log_*` printers, `fatal`/`fatalx`, `log_hello_src`, `log_map` and `log_fec` in ldpd/log.c are left out. `vlog` formats the message and, in the label-decision and LDP engine processes, sends it to the parent process as an `IMSG_LOG` message; only the parent hands it to the zlog logger. `fatal` and `fatalx` log and then exit the process. `log_hello_src`, `log_map` and `log_fec` format external structures (interfaces, FECs, pseudowire maps) into static buffers using `log_addr`, `inet_ntoa` and the name tables.
- `log_in6addr_scope` and the scope recovery in `log_in6addr` are left out. Only the buffer bookkeeping of the IPv6 path is modelled.
- The texts produced by `inet_ntop` and `getnameinfo` are outside the model. Each call is a success flag, and the result records which ring buffer holds the text.
- `encode_route_target_ip` copies `struct in_addr` with memcpy. The model takes the address as its four octets in memory order.
- `AF_MPLS` is assumed available (the `#ifdef AF_MPLS` branch of `af_name`), with its Linux value 28.
- The header constants are fixed at the values listed above, whether they come from a standard, the Linux headers or ldpd's own enums. A build with different values would change the numbers but not the structure.
- snprintf is modelled only for the conversions used here (`%u`, `%01u`, `%02u`, `%08x`, `%0x`). Truncation never applies: the model proves that each text fits its buffer (TF_LEN for `log_label` and `log_time`, 16 octets for the `msg_name` and `status_code_name` fallbacks, 64 for `pw_type_name`).
- LdpNames.MsgName, LdpNames.StatusCodeName, LdpNames.PwTypeName: in C the hex fallback is written into one static buffer per function, so a second unnamed lookup overwrites the text the first returned. The model returns a fresh string each time and does not model this aliasing.
- `Ecommunity.EcomLength`: the C `int` product `size * 8` could overflow, which is not modelled. The model keeps `size` non-negative and unbounded; real attribute lengths are far below the limit.
- `unsigned long refcnt` and `char *str` of `struct ecommunity` are carried as fields but not constrained. They belong to the interning code, which is not part of this model.

=== FILE: ctypes.dfy ===
/** The fixed-width C integer types of the modelled code, as ranges of
    mathematical integers. Any wrap-around or truncation is written out
    explicitly where the code performs it. */
module CTypes {

  /** `u_int8_t` / `uint8_t`: one octet. */
  type uint8 = x: int | 0 <= x < 0x100

  /** `u_int16_t` / `uint16_t`. */
  type uint16 = x: int | 0 <= x < 0x1_0000

  /** `u_int32_t` / `uint32_t`, also `as_t` and `unsigned int`. */
  type uint32 = x: int | 0 <= x < 0x1_0000_0000

  /** `time_t` on an LP64 platform: a signed 64-bit integer. */
  type int64 = x: int | -0x8000_0000_0000_0000 <= x < 0x8000_0000_0000_0000
}

=== FILE: digits.dfy ===
/** Unsigned integers as decimal or lower-case hexadecimal text: the printf
    conversions `%u`, `%01u`, `%02u`, `%08x` and `%0x` used by the LDP log
    helpers, together with the parser that reads such text back. */
module Digits {
  import opened Options

  predicate ValidBase(base: nat) {
    base == 10 || base == 16
  }

  function Pow(base: nat, k: nat): (r: nat)
    requires ValidBase(base)
    ensures r >= 1
  {
    if k == 0 then 1 else base * Pow(base, k - 1)
  }

  /** The character printf uses for digit `d` (lower-case for hex). */
  function DigitChar(d: nat): char
    requires d < 16
  {
    if d < 10 then ('0' as int + d) as char else ('a' as int + d - 10) as char
  }

  /** The digit a character stands for, or -1 for any other character. */
  function DigitValue(c: char): int {
    if '0' <= c <= '9' then c as int - '0' as int
    else if 'a' <= c <= 'f' then c as int - 'a' as int + 10
    else -1
  }

  predicate IsDigit(c: char, base: nat) {
    0 <= DigitValue(c) < base
  }

  predicate AllDigits(s: string, base: nat) {
    forall i :: 0 <= i < |s| ==> IsDigit(s[i], base)
  }

  /** Minimal rendering (`%u`, `%x`, and `%0x`, whose `0` flag pads to no
      width): most significant digit first, no leading zero except for 0. */
  function Render(n: nat, base: nat): (s: string)
    requires ValidBase(base)
    ensures |s| >= 1 && AllDigits(s, base)
    ensures s[0] == '0' <==> n == 0
    ensures n >= base ==> |s| >= 2
    decreases n
  {
    if n < base then [DigitChar(n)] else Render(n / base, base) + [DigitChar(n % base)]
  }

  function Zeros(k: nat): (s: string)
    ensures |s| == k
    ensures forall i :: 0 <= i < k ==> s[i] == '0'
  {
    seq(k, _ => '0')
  }

  /** `%0<width>u` / `%0<width>x`: the minimal rendering, left-padded with
      '0' up to `width` characters; a longer number is never cut, and text
      wider than the field carries no padding, so it has no leading zero. */
  function Padded(n: nat, width: nat, base: nat): (s: string)
    requires ValidBase(base)
    ensures |s| >= width && |s| >= 1
    ensures AllDigits(s, base)
    ensures |s| > width && |s| > 1 ==> s[0] != '0'
  {
    var digits := Render(n, base);
    if |digits| < width then Zeros(width - |digits|) + digits else digits
  }

  /** The number a digit string denotes, most significant digit first. */
  function ValueOf(s: string, base: nat): nat
    requires ValidBase(base) && AllDigits(s, base)
  {
    if s == [] then 0 else ValueOf(s[..|s| - 1], base) * base + DigitValue(s[|s| - 1])
  }

  /** Reads back a non-empty digit string; anything else is rejected. */
  function Parse(s: string, base: nat): Option<nat>
    requires ValidBase(base)
  {
    if |s| >= 1 && AllDigits(s, base) then Some(ValueOf(s, base)) else None
  }

  lemma {:induction false} ValueOfRender(n: nat, base: nat)
    requires ValidBase(base)
    ensures ValueOf(Render(n, base), base) == n
    decreases n
  {
    if n >= base {
      var prefix := Render(n / base, base);
      var s := prefix + [DigitChar(n % base)];
      assert s[..|s| - 1] == prefix;
      ValueOfRender(n / base, base);
      assert ValueOf(s, base) == (n / base) * base + n % base;
    }
  }

  /** A number below base^k needs at most k digits. */
  lemma {:induction false} RenderLength(n: nat, base: nat, k: nat)
    requires ValidBase(base) && 1 <= k && n < Pow(base, k)
    ensures |Render(n, base)| <= k
    decreases n
  {
    if n >= base {
      DivBelow(n, base, Pow(base, k - 1));
      RenderLength(n / base, base, k - 1);
    }
  }

  lemma DivBelow(n: nat, base: nat, p: nat)
    requires base >= 1 && n < base * p
    ensures n / base < p
  {
    var q := n / base;
    assert base * q <= n;
    if q >= p {
      MulMonotone(base, p, q);
    }
  }

  lemma MulMonotone(a: nat, x: nat, y: nat)
    requires x <= y
    ensures a * x <= a * y
  {
  }

  /** Leading zeros do not change the value read. */
  lemma {:induction false} ValueOfLeadingZeros(k: nat, s: string, base: nat)
    requires ValidBase(base) && AllDigits(s, base)
    ensures AllDigits(Zeros(k) + s, base)
    ensures ValueOf(Zeros(k) + s, base) == ValueOf(s, base)
    decreases |s|, k
  {
    var t := Zeros(k) + s;
    assert AllDigits(t, base) by {
      forall i | 0 <= i < |t|
        ensures IsDigit(t[i], base)
      {
        if i < k { assert t[i] == '0'; } else { assert t[i] == s[i - k]; }
      }
    }
    if s == [] {
      if k > 0 {
        assert t == Zeros(k - 1) + ['0'];
        assert t[..|t| - 1] == Zeros(k - 1) + [];
        ValueOfLeadingZeros(k - 1, [], base);
      }
    } else {
      var init := s[..|s| - 1];
      assert t[..|t| - 1] == Zeros(k) + init;
      assert t[|t| - 1] == s[|s| - 1];
      ValueOfLeadingZeros(k, init, base);
    }
  }

  /** Padding round trip: the padded text reads back as the number. */
  lemma ParsePadded(n: nat, width: nat, base: nat)
    requires ValidBase(base)
    ensures Parse(Padded(n, width, base), base) == Some(n)
  {
    var digits := Render(n, base);
    ValueOfRender(n, base);
    if |digits| < width {
      ValueOfLeadingZeros(width - |digits|, digits, base);
    }
  }

  /** A number below base^width is padded to exactly `width` characters. */
  lemma PaddedLength(n: nat, width: nat, base: nat)
    requires ValidBase(base) && 1 <= width && n < Pow(base, width)
    ensures |Padded(n, width, base)| == width
  {
    RenderLength(n, base, width);
  }

  /** Minimal rendering round trip. */
  lemma ParseRender(n: nat, base: nat)
    requires ValidBase(base)
    ensures Parse(Render(n, base), base) == Some(n)
  {
    ValueOfRender(n, base);
  }
}

=== FILE: ecommunity.dfy ===
/** BGP Extended Communities values (bgpd/bgp_ecommunity.h): the type and
    sub-type constants, the 8-octet value, the three Route Target encoders
    (sections 3.1, 3.2 and 4 of RFC 4360; section 2 of RFC 5668), a decoder
    that inverts them, and the shape of the attribute that carries a run of
    such values. */
module Ecommunity {
  import opened CTypes
  import opened Options

  // High-order octet of the type field.
  const ECOMMUNITY_ENCODE_AS: uint8 := 0x00
  const ECOMMUNITY_ENCODE_IP: uint8 := 0x01
  const ECOMMUNITY_ENCODE_AS4: uint8 := 0x02
  const ECOMMUNITY_ENCODE_OPAQUE: uint8 := 0x03
  const ECOMMUNITY_ENCODE_EVPN: uint8 := 0x06

  // Low-order octet of the type field.
  const ECOMMUNITY_ROUTE_TARGET: uint8 := 0x02
  const ECOMMUNITY_SITE_ORIGIN: uint8 := 0x03

  const ECOMMUNITY_EVPN_SUBTYPE_MACMOBILITY: uint8 := 0x00
  const ECOMMUNITY_EVPN_SUBTYPE_ESI_LABEL: uint8 := 0x01
  const ECOMMUNITY_EVPN_SUBTYPE_ES_IMPORT_RT: uint8 := 0x02
  const ECOMMUNITY_EVPN_SUBTYPE_ROUTERMAC: uint8 := 0x03
  const ECOMMUNITY_EVPN_SUBTYPE_DEF_GW: uint8 := 0x0d

  const ECOMMUNITY_OPAQUE_SUBTYPE_ENCAP: uint8 := 0x0c

  // Text formats of the attribute string conversion.
  const ECOMMUNITY_FORMAT_ROUTE_MAP: int := 0
  const ECOMMUNITY_FORMAT_COMMUNITY_LIST: int := 1
  const ECOMMUNITY_FORMAT_DISPLAY: int := 2

  /** Every extended community value is eight octets long. */
  const ECOMMUNITY_SIZE: nat := 8

  /** Bit of the high-order type octet that marks a non-transitive community. */
  const ECOMMUNITY_FLAG_NON_TRANSITIVE: uint8 := 0x40

  /** `struct ecommunity_val`: exactly ECOMMUNITY_SIZE octets. The C field
      is `char val[8]`, possibly signed; octets 0-255 carry the same bit
      patterns, and the encoders only store values masked with 0xff. */
  type EcomVal = s: seq<uint8> | |s| == 8 witness [0, 0, 0, 0, 0, 0, 0, 0]

  /** `struct in_addr` as its four octets in network order. */
  type InAddr = s: seq<uint8> | |s| == 4 witness [0, 0, 0, 0]

  /** Big-endian reading of two and four octets. */
  function Be16(hi: uint8, lo: uint8): uint16 {
    hi * 0x100 + lo
  }

  function Be32(b0: uint8, b1: uint8, b2: uint8, b3: uint8): uint32 {
    b0 * 0x100_0000 + b1 * 0x1_0000 + b2 * 0x100 + b3
  }

  /** `(x >> 8) & 0xff` then `x & 0xff` read back big-endian give x mod 2^16. */
  lemma OctetsOf16(x: nat)
    ensures Be16((x / 0x100) % 0x100, x % 0x100) == x % 0x1_0000
  {
    var q := x / 0x100;
    assert x == q * 0x100 + x % 0x100;
    assert q == (q / 0x100) * 0x100 + q % 0x100;
    assert x == (q / 0x100) * 0x1_0000 + (q % 0x100) * 0x100 + x % 0x100;
  }

  /** The four shifted octets of a 32-bit number read back big-endian give it. */
  lemma OctetsOf32(x: uint32)
    ensures Be32((x / 0x100_0000) % 0x100, (x / 0x1_0000) % 0x100, (x / 0x100) % 0x100, x % 0x100) == x
  {
    var lo, hi := x % 0x1_0000, x / 0x1_0000;
    assert x == hi * 0x1_0000 + lo && hi < 0x1_0000;
    OctetsOf16(x);
    OctetsOf16(hi);
    assert hi / 0x100 == x / 0x100_0000 by {
      assert x == (hi / 0x100) * 0x100_0000 + ((hi % 0x100) * 0x1_0000 + lo);
      assert 0 <= (hi % 0x100) * 0x1_0000 + lo < 0x100_0000;
    }
    assert Be16((hi / 0x100) % 0x100, hi % 0x100) == hi;
    assert Be16((x / 0x100) % 0x100, x % 0x100) == lo;
  }

  /** The octets `(x >> 8) & 0xff` and `x & 0xff`, most significant first. */
  function OctetsBe16(x: nat): (o: seq<uint8>)
    ensures |o| == 2 && Be16(o[0], o[1]) == x % 0x1_0000
  {
    OctetsOf16(x);
    [(x / 0x100) % 0x100, x % 0x100]
  }

  /** The octets `(x >> 24) & 0xff` down to `x & 0xff`, most significant first. */
  function OctetsBe32(x: uint32): (o: seq<uint8>)
    ensures |o| == 4 && Be32(o[0], o[1], o[2], o[3]) == x
  {
    OctetsOf32(x);
    [(x / 0x100_0000) % 0x100, (x / 0x1_0000) % 0x100, (x / 0x100) % 0x100, x % 0x100]
  }

  /** True when the non-transitive bit 0x40 of the type octet is clear. */
  predicate IsTransitive(v: EcomVal) {
    (v[0] / ECOMMUNITY_FLAG_NON_TRANSITIVE) % 2 == 0
  }

  /** `encode_route_target_as`: Two-Octet AS Specific Route Target. The AS
      field is two octets wide, so `(as >> 8) & 0xff` and `as & 0xff` keep
      only the low 16 bits of a four-octet AS number. All eight octets of
      the caller's buffer are stored. */
  function EncodeRouteTargetAs(eval: EcomVal, asn: uint32, val: uint32): (r: EcomVal)
    ensures r[0] == ECOMMUNITY_ENCODE_AS && r[1] == ECOMMUNITY_ROUTE_TARGET
    ensures Be16(r[2], r[3]) == asn % 0x1_0000
    ensures Be32(r[4], r[5], r[6], r[7]) == val
    ensures IsTransitive(r)
  {
    var a, v := OctetsBe16(asn), OctetsBe32(val);
    var r := eval[0 := ECOMMUNITY_ENCODE_AS][1 := ECOMMUNITY_ROUTE_TARGET]
                 [2 := a[0]][3 := a[1]][4 := v[0]][5 := v[1]][6 := v[2]][7 := v[3]];
    assert r[2] == a[0] && r[3] == a[1];
    assert r[4] == v[0] && r[5] == v[1] && r[6] == v[2] && r[7] == v[3];
    r
  }

  /** `encode_route_target_ip`: IPv4 Address Specific Route Target. The
      address octets are copied unchanged into octets 2-5. */
  function EncodeRouteTargetIp(eval: EcomVal, ip: InAddr, val: uint16): (r: EcomVal)
    ensures r[0] == ECOMMUNITY_ENCODE_IP && r[1] == ECOMMUNITY_ROUTE_TARGET
    ensures r[2..6] == ip
    ensures Be16(r[6], r[7]) == val
    ensures IsTransitive(r)
  {
    var v := OctetsBe16(val);
    var r := eval[0 := ECOMMUNITY_ENCODE_IP][1 := ECOMMUNITY_ROUTE_TARGET]
                 [2 := ip[0]][3 := ip[1]][4 := ip[2]][5 := ip[3]][6 := v[0]][7 := v[1]];
    assert r[2..6] == ip;
    assert r[6] == v[0] && r[7] == v[1];
    r
  }

  /** `encode_route_target_as4`: Four-Octet AS Specific Route Target. */
  function EncodeRouteTargetAs4(eval: EcomVal, asn: uint32, val: uint16): (r: EcomVal)
    ensures r[0] == ECOMMUNITY_ENCODE_AS4 && r[1] == ECOMMUNITY_ROUTE_TARGET
    ensures Be32(r[2], r[3], r[4], r[5]) == asn
    ensures Be16(r[6], r[7]) == val
    ensures IsTransitive(r)
  {
    var a, v := OctetsBe32(asn), OctetsBe16(val);
    var r := eval[0 := ECOMMUNITY_ENCODE_AS4][1 := ECOMMUNITY_ROUTE_TARGET]
                 [2 := a[0]][3 := a[1]][4 := a[2]][5 := a[3]][6 := v[0]][7 := v[1]];
    assert r[2] == a[0] && r[3] == a[1] && r[4] == a[2] && r[5] == a[3];
    assert r[6] == v[0] && r[7] == v[1];
    r
  }

  /** The typed fields a Route Target value carries. */
  datatype RouteTarget =
    | AsRouteTarget(asn: uint16, localAdmin: uint32)
    | IpRouteTarget(addr: InAddr, ipLocalAdmin: uint16)
    | As4RouteTarget(asn4: uint32, as4LocalAdmin: uint16)

  /** Reads the typed fields back from a value; any value that is not one of
      the three Route Target layouts yields None. */
  function DecodeRouteTarget(v: EcomVal): (r: Option<RouteTarget>)
    ensures r.Some?
        <==> v[1] == ECOMMUNITY_ROUTE_TARGET && v[0] in {ECOMMUNITY_ENCODE_AS, ECOMMUNITY_ENCODE_IP, ECOMMUNITY_ENCODE_AS4}
    ensures r.Some? ==> (r.value.AsRouteTarget? <==> v[0] == ECOMMUNITY_ENCODE_AS)
    ensures r.Some? ==> (r.value.IpRouteTarget? <==> v[0] == ECOMMUNITY_ENCODE_IP)
  {
    if v[1] != ECOMMUNITY_ROUTE_TARGET then None
    else if v[0] == ECOMMUNITY_ENCODE_AS then
      Some(AsRouteTarget(Be16(v[2], v[3]), Be32(v[4], v[5], v[6], v[7])))
    else if v[0] == ECOMMUNITY_ENCODE_IP then
      Some(IpRouteTarget(v[2..6], Be16(v[6], v[7])))
    else if v[0] == ECOMMUNITY_ENCODE_AS4 then
      Some(As4RouteTarget(Be32(v[2], v[3], v[4], v[5]), Be16(v[6], v[7])))
    else None
  }

  const ZERO_VAL: EcomVal := [0, 0, 0, 0, 0, 0, 0, 0]

  /** Picks the encoder that matches the typed fields: the type octet
      follows the variant and the sub-type is always Route Target. */
  function EncodeRouteTarget(rt: RouteTarget): (v: EcomVal)
    ensures v[1] == ECOMMUNITY_ROUTE_TARGET && IsTransitive(v)
    ensures v[0] == (if rt.AsRouteTarget? then ECOMMUNITY_ENCODE_AS
                     else if rt.IpRouteTarget? then ECOMMUNITY_ENCODE_IP
                     else ECOMMUNITY_ENCODE_AS4)
  {
    match rt
    case AsRouteTarget(asn, val) => EncodeRouteTargetAs(ZERO_VAL, asn, val)
    case IpRouteTarget(ip, val) => EncodeRouteTargetIp(ZERO_VAL, ip, val)
    case As4RouteTarget(asn, val) => EncodeRouteTargetAs4(ZERO_VAL, asn, val)
  }

  lemma Be16Injective(a: uint8, b: uint8, c: uint8, d: uint8)
    requires Be16(a, b) == Be16(c, d)
    ensures a == c && b == d
  {
  }

  lemma Be32Injective(a0: uint8, a1: uint8, a2: uint8, a3: uint8,
                      b0: uint8, b1: uint8, b2: uint8, b3: uint8)
    requires Be32(a0, a1, a2, a3) == Be32(b0, b1, b2, b3)
    ensures a0 == b0 && a1 == b1 && a2 == b2 && a3 == b3
  {
    assert Be32(a0, a1, a2, a3) == Be16(a0, a1) * 0x1_0000 + Be16(a2, a3);
    assert Be32(b0, b1, b2, b3) == Be16(b0, b1) * 0x1_0000 + Be16(b2, b3);
    Be16Injective(a0, a1, b0, b1);
    Be16Injective(a2, a3, b2, b3);
  }

  /** Decoding a Two-Octet AS Route Target recovers the AS number modulo
      2^16 and the full 32-bit Local Administrator number. */
  lemma DecodeEncodeAs(eval: EcomVal, asn: uint32, val: uint32)
    ensures DecodeRouteTarget(EncodeRouteTargetAs(eval, asn, val))
         == Some(AsRouteTarget(asn % 0x1_0000, val))
  {
  }

  /** Decoding an IPv4 Route Target recovers the address and the 16-bit value. */
  lemma DecodeEncodeIp(eval: EcomVal, ip: InAddr, val: uint16)
    ensures DecodeRouteTarget(EncodeRouteTargetIp(eval, ip, val))
         == Some(IpRouteTarget(ip, val))
  {
  }

  /** Decoding a Four-Octet AS Route Target recovers both fields exactly. */
  lemma DecodeEncodeAs4(eval: EcomVal, asn: uint32, val: uint16)
    ensures DecodeRouteTarget(EncodeRouteTargetAs4(eval, asn, val))
         == Some(As4RouteTarget(asn, val))
  {
  }

  /** Every typed Route Target survives encode then decode. */
  lemma DecodeEncode(rt: RouteTarget)
    ensures DecodeRouteTarget(EncodeRouteTarget(rt)) == Some(rt)
  {
    if rt.AsRouteTarget? {
      DecodeEncodeAs(ZERO_VAL, rt.asn, rt.localAdmin);
      Uint16Mod(rt.asn);
    } else if rt.IpRouteTarget? {
      DecodeEncodeIp(ZERO_VAL, rt.addr, rt.ipLocalAdmin);
    } else {
      DecodeEncodeAs4(ZERO_VAL, rt.asn4, rt.as4LocalAdmin);
    }
  }

  /** Conversely, every value the decoder accepts is exactly what the
      encoder produces from the decoded fields. */
  lemma EncodeDecode(v: EcomVal)
    requires DecodeRouteTarget(v).Some?
    ensures EncodeRouteTarget(DecodeRouteTarget(v).value) == v
  {
    if v[0] == ECOMMUNITY_ENCODE_AS {
      var rt := AsRouteTarget(Be16(v[2], v[3]), Be32(v[4], v[5], v[6], v[7]));
      assert DecodeRouteTarget(v) == Some(rt);
      var w := EncodeRouteTargetAs(ZERO_VAL, rt.asn, rt.localAdmin);
      assert EncodeRouteTarget(rt) == w;
      Uint16Mod(rt.asn);
      Be16Injective(w[2], w[3], v[2], v[3]);
      Be32Injective(w[4], w[5], w[6], w[7], v[4], v[5], v[6], v[7]);
      SameOctets(w, v);
    } else if v[0] == ECOMMUNITY_ENCODE_IP {
      var rt := IpRouteTarget(v[2..6], Be16(v[6], v[7]));
      assert DecodeRouteTarget(v) == Some(rt);
      var w := EncodeRouteTargetIp(ZERO_VAL, rt.addr, rt.ipLocalAdmin);
      assert EncodeRouteTarget(rt) == w;
      Be16Injective(w[6], w[7], v[6], v[7]);
      assert w[2..6] == v[2..6];
      assert w[2] == v[2] && w[3] == v[3] && w[4] == v[4] && w[5] == v[5];
      SameOctets(w, v);
    } else {
      var rt := As4RouteTarget(Be32(v[2], v[3], v[4], v[5]), Be16(v[6], v[7]));
      assert DecodeRouteTarget(v) == Some(rt);
      var w := EncodeRouteTargetAs4(ZERO_VAL, rt.asn4, rt.as4LocalAdmin);
      assert EncodeRouteTarget(rt) == w;
      Be32Injective(w[2], w[3], w[4], w[5], v[2], v[3], v[4], v[5]);
      Be16Injective(w[6], w[7], v[6], v[7]);
      SameOctets(w, v);
    }
  }

  lemma Uint16Mod(x: uint16)
    ensures x % 0x1_0000 == x
  {
  }

  lemma SameOctets(w: EcomVal, v: EcomVal)
    requires w[0] == v[0] && w[1] == v[1] && w[2] == v[2] && w[3] == v[3]
    requires w[4] == v[4] && w[5] == v[5] && w[6] == v[6] && w[7] == v[7]
    ensures w == v
  {
  }

  /** Nothing of the caller's previous buffer survives an encoder: the
      result depends only on the typed arguments. */
  lemma EncodersOverwriteBuffer(p: EcomVal, q: EcomVal, asn: uint32, val32: uint32,
                                ip: InAddr, val16: uint16)
    ensures EncodeRouteTargetAs(p, asn, val32) == EncodeRouteTargetAs(q, asn, val32)
    ensures EncodeRouteTargetIp(p, ip, val16) == EncodeRouteTargetIp(q, ip, val16)
    ensures EncodeRouteTargetAs4(p, asn, val16) == EncodeRouteTargetAs4(q, asn, val16)
  {
    var a, b := EncodeRouteTargetAs(p, asn, val32), EncodeRouteTargetAs(q, asn, val32);
    Be16Injective(a[2], a[3], b[2], b[3]);
    Be32Injective(a[4], a[5], a[6], a[7], b[4], b[5], b[6], b[7]);
    assert a == b;
    var c, d := EncodeRouteTargetIp(p, ip, val16), EncodeRouteTargetIp(q, ip, val16);
    Be16Injective(c[6], c[7], d[6], d[7]);
    assert c == d;
    var e, f := EncodeRouteTargetAs4(p, asn, val16), EncodeRouteTargetAs4(q, asn, val16);
    Be32Injective(e[2], e[3], e[4], e[5], f[2], f[3], f[4], f[5]);
    Be16Injective(e[6], e[7], f[6], f[7]);
    assert e == f;
  }

  /** The Two-Octet AS encoder drops the high 16 bits of the AS number:
      two AS numbers that agree modulo 2^16 give the same value, and the
      encoder is injective on the pair (AS mod 2^16, Local Administrator number). */
  lemma AsEncodingTruncates(eval: EcomVal, a1: uint32, v1: uint32, a2: uint32, v2: uint32)
    ensures EncodeRouteTargetAs(eval, a1, v1) == EncodeRouteTargetAs(eval, a2, v2)
        <==> a1 % 0x1_0000 == a2 % 0x1_0000 && v1 == v2
  {
    if a1 % 0x1_0000 == a2 % 0x1_0000 && v1 == v2 {
      var r1, r2 := EncodeRouteTargetAs(eval, a1, v1), EncodeRouteTargetAs(eval, a2, v2);
      Be16Injective(r1[2], r1[3], r2[2], r2[3]);
      assert r1 == r2;
    }
  }

  /** The Four-Octet AS encoder is injective. */
  lemma As4EncodingInjective(eval: EcomVal, a1: uint32, v1: uint16, a2: uint32, v2: uint16)
    ensures EncodeRouteTargetAs4(eval, a1, v1) == EncodeRouteTargetAs4(eval, a2, v2)
        <==> a1 == a2 && v1 == v2
  {
  }

  /** Values from different encoders never coincide: their type octets
      are 0x00, 0x01 and 0x02. */
  lemma EncodersDistinct(p1: EcomVal, asn: uint32, val32: uint32,
                         p2: EcomVal, ip: InAddr, val16: uint16,
                         p3: EcomVal, asn4: uint32, val4: uint16)
    ensures EncodeRouteTargetAs(p1, asn, val32) != EncodeRouteTargetIp(p2, ip, val16)
    ensures EncodeRouteTargetAs(p1, asn, val32) != EncodeRouteTargetAs4(p3, asn4, val4)
    ensures EncodeRouteTargetIp(p2, ip, val16) != EncodeRouteTargetAs4(p3, asn4, val4)
  {
  }

  /** `struct ecommunity`: reference count, number of values, the value
      octets and the cached text form. */
  datatype Ecommunity = Ecommunity(refcnt: nat, size: int, val: seq<uint8>, str: Option<string>)

  /** The value octets hold exactly `size` values. */
  predicate WellFormed(e: Ecommunity) {
    e.size >= 0 && |e.val| == e.size * ECOMMUNITY_SIZE
  }

  /** `ecom_length(X)`: octets occupied by the attribute's values; for a
      well-formed attribute, exactly the length of its value octets. */
  function EcomLength(e: Ecommunity): (n: int)
    ensures WellFormed(e) ==> n == |e.val|
    ensures n % ECOMMUNITY_SIZE == 0
  {
    e.size * ECOMMUNITY_SIZE
  }

  /** Concatenation of values into wire octets. */
  function Concat(vs: seq<EcomVal>): (bytes: seq<uint8>)
    ensures |bytes| == |vs| * ECOMMUNITY_SIZE
  {
    if vs == [] then [] else vs[0] + Concat(vs[1..])
  }

  /** Cuts octets into consecutive 8-octet values. */
  function Split(bytes: seq<uint8>): (vs: seq<EcomVal>)
    requires |bytes| % ECOMMUNITY_SIZE == 0
    ensures |vs| * ECOMMUNITY_SIZE == |bytes|
    ensures Concat(vs) == bytes
    decreases |bytes|
  {
    if bytes == [] then []
    else
      var head: EcomVal := bytes[..8];
      assert bytes == head + bytes[8..];
      [head] + Split(bytes[8..])
  }

  lemma {:induction false} SplitConcat(vs: seq<EcomVal>)
    ensures Split(Concat(vs)) == vs
  {
    if vs != [] {
      var bytes := Concat(vs);
      assert bytes[..8] == vs[0];
      assert bytes[8..] == Concat(vs[1..]);
      SplitConcat(vs[1..]);
      assert vs == [vs[0]] + vs[1..];
    }
  }

  /** The values of a well-formed attribute: `size` of them, whose octets,
      `ecom_length` in number, are exactly the attribute's value octets. */
  function Values(e: Ecommunity): (vs: seq<EcomVal>)
    requires WellFormed(e)
    ensures |vs| == e.size
    ensures EcomLength(e) == |Concat(vs)| && Concat(vs) == e.val
  {
    Split(e.val)
  }
}

=== FILE: ldp_log.dfy ===
/** The pure rendering helpers of ldpd/log.c: `log_label`, `log_time` and
    the buffer bookkeeping of `log_addr`/`log_sockaddr`. Each helper writes
    into one buffer of its own static ring (see LogRing) and returns it; the
    model returns the buffer index, the text, and the advanced ring index. */
module LdpLog {
  import opened CTypes
  import opened Options
  import opened Digits
  import opened LogRing
  import LdpNames

  /** Size of each `log_label`/`log_time` buffer; snprintf keeps at most
      TF_LEN - 1 characters. */
  const TF_LEN: nat := 32

  // Reserved label values (section 2.1 of RFC 3032); lib/mpls.h, which
  // defines them, is not part of this model.
  const MPLS_LABEL_IPV4NULL: uint32 := 0
  const MPLS_LABEL_IPV6NULL: uint32 := 2
  const MPLS_LABEL_IMPLNULL: uint32 := 3

  /** ldpd's "no label" marker, UINT32_MAX (ldpd/ldpd.h, not part of this model). */
  const NO_LABEL: uint32 := 0xffff_ffff

  /** A result string and the index of the ring buffer holding it. */
  datatype Rendered = Rendered(slot: nat, text: string)

  // ---------------------------------------------------------------------
  // log_label

  /** The text `log_label` formats for a label: a 32-bit label in decimal
      has at most ten digits, so no text is longer than ten characters. */
  function LabelText(lbl: uint32): (s: string)
    ensures 1 <= |s| <= 10
  {
    if lbl == NO_LABEL then "-"
    else if lbl == MPLS_LABEL_IMPLNULL then "imp-null"
    else if lbl == MPLS_LABEL_IPV4NULL || lbl == MPLS_LABEL_IPV6NULL then "exp-null"
    else
      assert Pow(10, 10) == 10_000_000_000;
      RenderLength(lbl, 10, 10);
      Render(lbl, 10)
  }

  /** `log_label`: writes the label's text into the buffer at the current
      index and moves the index one step round the ring. The text never
      reaches TF_LEN characters, so snprintf never cuts it. */
  function LogLabel(idx: int, lbl: uint32): (r: (Rendered, int))
    requires 0 <= idx < TF_BUFS
    ensures r.0.slot == idx && r.1 == (idx + 1) % TF_BUFS
    ensures r.0.text == LabelText(lbl) && |r.0.text| < TF_LEN
  {
    var (slot, next) := TakeSlot(idx);
    (Rendered(slot, LabelText(lbl)), next)
  }

  /** Consecutive `log_label` calls starting at index `idx`: the results in
      call order and the index left behind. */
  function LogLabels(idx: int, labels: seq<uint32>): (r: (seq<Rendered>, int))
    requires 0 <= idx < TF_BUFS
    ensures |r.0| == |labels| && r.1 == (idx + |labels|) % TF_BUFS
    decreases |labels|
  {
    if labels == [] then ([], idx)
    else
      var (first, next) := LogLabel(idx, labels[0]);
      var (rest, last) := LogLabels(next, labels[1..]);
      ([first] + rest, last)
  }

  /** The i-th of consecutive `log_label` calls writes its label's text
      into buffer (idx + i) mod TF_BUFS. */
  lemma {:induction false} LogLabelsSlots(idx: int, labels: seq<uint32>)
    requires 0 <= idx < TF_BUFS
    ensures forall i :: 0 <= i < |labels| ==>
      LogLabels(idx, labels).0[i] == Rendered((idx + i) % TF_BUFS, LabelText(labels[i]))
    decreases |labels|
  {
    if labels != [] {
      var next := (idx + 1) % TF_BUFS;
      LogLabelsSlots(next, labels[1..]);
      forall i | 0 <= i < |labels|
        ensures LogLabels(idx, labels).0[i] == Rendered((idx + i) % TF_BUFS, LabelText(labels[i]))
      {
        if i > 0 {
          assert LogLabels(idx, labels).0[i] == LogLabels(next, labels[1..]).0[i - 1];
          assert labels[1..][i - 1] == labels[i];
        }
      }
    }
  }

  /** Four `log_label` results can be held at once in distinct buffers; the
      fifth call writes into the buffer of the first. */
  lemma FourLabelsThenReuse(idx: int, labels: seq<uint32>)
    requires 0 <= idx < TF_BUFS && |labels| == 5
    ensures forall i, j :: 0 <= i < j < 4 ==> LogLabels(idx, labels).0[i].slot != LogLabels(idx, labels).0[j].slot
    ensures LogLabels(idx, labels).0[4].slot == LogLabels(idx, labels).0[0].slot
  {
    LogLabelsSlots(idx, labels);
  }

  /** Each special text is produced by exactly the labels the switch maps
      to it: NO_LABEL, implicit null, and the two explicit nulls. Every
      other label is printed in decimal as `%u` does, with no leading zero
      (zero itself is an explicit null, so it never reaches `%u`). */
  lemma LabelTextSpec(lbl: uint32)
    ensures LabelText(lbl) == "-" <==> lbl == NO_LABEL
    ensures LabelText(lbl) == "imp-null" <==> lbl == MPLS_LABEL_IMPLNULL
    ensures LabelText(lbl) == "exp-null"
        <==> lbl == MPLS_LABEL_IPV4NULL || lbl == MPLS_LABEL_IPV6NULL
    ensures lbl !in {NO_LABEL, MPLS_LABEL_IMPLNULL, MPLS_LABEL_IPV4NULL, MPLS_LABEL_IPV6NULL}
        ==> AllDigits(LabelText(lbl), 10)
    ensures lbl !in {NO_LABEL, MPLS_LABEL_IMPLNULL, MPLS_LABEL_IPV4NULL, MPLS_LABEL_IPV6NULL}
        ==> LabelText(lbl)[0] != '0'
  {
    var s := LabelText(lbl);
    if lbl !in {NO_LABEL, MPLS_LABEL_IMPLNULL, MPLS_LABEL_IPV4NULL, MPLS_LABEL_IPV6NULL} {
      assert IsDigit(s[0], 10);
      assert !IsDigit("-"[0], 10) && !IsDigit("imp-null"[0], 10) && !IsDigit("exp-null"[0], 10);
    }
  }

  /** Reads a `log_label` text back; "exp-null" reads as the IPv4 explicit null. */
  function ParseLabel(s: string): Option<uint32> {
    if s == "-" then Some(NO_LABEL)
    else if s == "imp-null" then Some(MPLS_LABEL_IMPLNULL)
    else if s == "exp-null" then Some(MPLS_LABEL_IPV4NULL)
    else
      match Parse(s, 10)
      case Some(n) => if n < 0x1_0000_0000 then Some(n) else None
      case None => None
  }

  /** Every label is recovered from its text, except that the two explicit
      null labels share the text "exp-null". */
  lemma LabelTextRoundTrip(lbl: uint32)
    ensures ParseLabel(LabelText(lbl))
         == Some(if lbl == MPLS_LABEL_IPV6NULL then MPLS_LABEL_IPV4NULL else lbl)
  {
    LabelTextSpec(lbl);
    if lbl !in {NO_LABEL, MPLS_LABEL_IMPLNULL, MPLS_LABEL_IPV4NULL, MPLS_LABEL_IPV6NULL} {
      ParseRender(lbl, 10);
    }
  }

  // ---------------------------------------------------------------------
  // log_time

  /** A duration split into weeks, days, hours, minutes and seconds. */
  datatype Span = Span(week: nat, day: nat, hrs: nat, min: nat, sec: nat)

  /** The decomposition in `log_time`: `week = t` keeps `t` modulo 2^32
      (conversion to unsigned int), then `%` and `/` peel off seconds,
      minutes, hours and days. The parts are in range and rebuild the
      truncated duration. */
  function Decompose(t: int64): (d: Span)
    ensures d.sec < 60 && d.min < 60 && d.hrs < 24 && d.day < 7
    ensures ((d.week * 7 + d.day) * 24 + d.hrs) * 3600 + d.min * 60 + d.sec == t % 0x1_0000_0000
    ensures d.week <= 7101
  {
    var w0 := t % 0x1_0000_0000;
    var sec := w0 % 60;
    var w1 := w0 / 60;
    var min := w1 % 60;
    var w2 := w1 / 60;
    var hrs := w2 % 24;
    var w3 := w2 / 24;
    var day := w3 % 7;
    var week := w3 / 7;
    assert w0 == w1 * 60 + sec && w1 == w2 * 60 + min && w2 == w3 * 24 + hrs && w3 == week * 7 + day;
    Span(week, day, hrs, min, sec)
  }

  /** The text `log_time` formats: `%02uw%01ud%02uh` when there are whole
      weeks, else `%01ud%02uh%02um` when there are whole days, else
      `%02u:%02u:%02u`. The two day-or-less forms are exactly eight
      characters; at most 7101 weeks fit in 32 bits, four digits, so no
      form is longer than ten. */
  function TimeText(t: int64): (s: string)
    ensures Decompose(t).week == 0 ==> |s| == 8
    ensures 8 <= |s| <= 10
  {
    var d := Decompose(t);
    SmallFieldWidths(d);
    assert Pow(10, 4) == 10000;
    RenderLength(d.week, 10, 4);
    if d.week > 0 then
      Padded(d.week, 2, 10) + "w" + Padded(d.day, 1, 10) + "d" + Padded(d.hrs, 2, 10) + "h"
    else if d.day > 0 then
      Padded(d.day, 1, 10) + "d" + Padded(d.hrs, 2, 10) + "h" + Padded(d.min, 2, 10) + "m"
    else
      Padded(d.hrs, 2, 10) + ":" + Padded(d.min, 2, 10) + ":" + Padded(d.sec, 2, 10)
  }

  /** `log_time`: writes the duration's text into the buffer at the
      current index and moves the index one step round the ring. The text
      never reaches TF_LEN characters, so it is never cut. */
  function LogTime(idx: int, t: int64): (r: (Rendered, int))
    requires 0 <= idx < TF_BUFS
    ensures r.0.slot == idx && r.1 == (idx + 1) % TF_BUFS
    ensures r.0.text == TimeText(t) && |r.0.text| < TF_LEN
  {
    var (slot, next) := TakeSlot(idx);
    (Rendered(slot, TimeText(t)), next)
  }

  /** The three fields a `log_time` text shows, by format. */
  datatype Shown =
    | WeeksDaysHours(weeks: nat, wdays: nat, whours: nat)
    | DaysHoursMinutes(days: nat, dhours: nat, dminutes: nat)
    | HoursMinutesSeconds(hours: nat, minutes: nat, seconds: nat)

  /** The fields the chosen format shows for a decomposed duration. */
  function ShownFields(d: Span): Shown {
    if d.week > 0 then WeeksDaysHours(d.week, d.day, d.hrs)
    else if d.day > 0 then DaysHoursMinutes(d.day, d.hrs, d.min)
    else HoursMinutesSeconds(d.hrs, d.min, d.sec)
  }

  function Decimal3(a: string, b: string, c: string): Option<(nat, nat, nat)> {
    match (Parse(a, 10), Parse(b, 10), Parse(c, 10))
    case (Some(x), Some(y), Some(z)) => Some((x, y, z))
    case _ => None
  }

  /** Reads a `log_time` text back into the fields it shows; the format is
      told apart by its separators. */
  function ParseTimeText(s: string): Option<Shown> {
    if |s| == 8 && s[2] == ':' && s[5] == ':' then
      match Decimal3(s[0..2], s[3..5], s[6..8])
      case Some((h, m, sec)) => Some(HoursMinutesSeconds(h, m, sec))
      case None => None
    else if |s| == 8 && s[1] == 'd' && s[4] == 'h' && s[7] == 'm' then
      match Decimal3(s[0..1], s[2..4], s[5..7])
      case Some((d, h, m)) => Some(DaysHoursMinutes(d, h, m))
      case None => None
    else if |s| >= 8 && s[|s| - 6] == 'w' && s[|s| - 4] == 'd' && s[|s| - 1] == 'h' then
      match Decimal3(s[..|s| - 6], s[|s| - 5..|s| - 4], s[|s| - 3..|s| - 1])
      case Some((w, d, h)) => Some(WeeksDaysHours(w, d, h))
      case None => None
    else None
  }

  /** Padded small fields have exactly the width asked for. */
  lemma SmallFieldWidths(d: Span)
    requires d.sec < 60 && d.min < 60 && d.hrs < 24 && d.day < 7
    ensures |Padded(d.sec, 2, 10)| == 2 && |Padded(d.min, 2, 10)| == 2
    ensures |Padded(d.hrs, 2, 10)| == 2 && |Padded(d.day, 1, 10)| == 1
  {
    assert Pow(10, 2) == 100 && Pow(10, 1) == 10;
    PaddedLength(d.sec, 2, 10);
    PaddedLength(d.min, 2, 10);
    PaddedLength(d.hrs, 2, 10);
    PaddedLength(d.day, 1, 10);
  }

  /** `log_time` text reads back as exactly the fields its format shows. */
  lemma TimeTextRoundTrip(t: int64)
    ensures ParseTimeText(TimeText(t)) == Some(ShownFields(Decompose(t)))
  {
    var d := Decompose(t);
    var s := TimeText(t);
    SmallFieldWidths(d);
    var W, D, H, M, S :=
      Padded(d.week, 2, 10), Padded(d.day, 1, 10), Padded(d.hrs, 2, 10),
      Padded(d.min, 2, 10), Padded(d.sec, 2, 10);
    ParsePadded(d.week, 2, 10);
    ParsePadded(d.day, 1, 10);
    ParsePadded(d.hrs, 2, 10);
    ParsePadded(d.min, 2, 10);
    ParsePadded(d.sec, 2, 10);
    if d.week > 0 {
      assert s == W + "w" + D + "d" + H + "h";
      var n := |s|;
      assert n == |W| + 6;
      assert s[..n - 6] == W;
      assert s[n - 5..n - 4] == D;
      assert s[n - 3..n - 1] == H;
      assert s[2] == (if |W| == 2 then 'w' else W[2]);
      assert IsDigit(H[0], 10);
    } else if d.day > 0 {
      assert s == D + "d" + H + "h" + M + "m";
      assert s[0..1] == D && s[2..4] == H && s[5..7] == M;
      assert s[2] == H[0] && IsDigit(H[0], 10);
    } else {
      assert s == H + ":" + M + ":" + S;
      assert s[0..2] == H && s[3..5] == M && s[6..8] == S;
    }
  }

  /** When the duration is under a day the text shows all of it: the
      hours, minutes and seconds it displays rebuild `t` modulo 2^32. */
  lemma ClockShowsWholeDuration(t: int64)
    requires Decompose(t).week == 0 && Decompose(t).day == 0
    ensures ParseTimeText(TimeText(t)).Some?
    ensures var f := ParseTimeText(TimeText(t)).value;
      f.HoursMinutesSeconds? && f.hours * 3600 + f.minutes * 60 + f.seconds == t % 0x1_0000_0000
  {
    TimeTextRoundTrip(t);
  }

  // ---------------------------------------------------------------------
  // log_addr and log_sockaddr

  /** The static rounds of `log_addr` and of `log_sockaddr`. */
  datatype AddrRounds = AddrRounds(addrRound: int, sockRound: int)

  predicate ValidRounds(st: AddrRounds) {
    0 <= st.addrRound < NUM_LOGS && 0 <= st.sockRound < NUM_LOGS
  }

  /** What an address renderer returns: one of its ring buffers, filled by
      inet_ntop or getnameinfo (whose text is outside this model), or a
      fixed string. */
  datatype AddrText =
    | AddrBuffer(addrSlot: nat)
    | SockaddrBuffer(sockSlot: nat)
    | Fixed(text: string)

  /** `log_sockaddr`: advances its round, then returns that buffer, or
      "(unknown)" when getnameinfo fails. */
  function LogSockaddr(round: int, nameinfoOk: bool): (r: (AddrText, int))
    requires 0 <= round < NUM_LOGS
    ensures r.1 == (round + 1) % NUM_LOGS && r.1 != round
    ensures nameinfoOk ==> r.0 == SockaddrBuffer(r.1)
    ensures !nameinfoOk ==> r.0 == Fixed("(unknown)")
  {
    var next := AdvanceRound(round);
    (if nameinfoOk then SockaddrBuffer(next) else Fixed("(unknown)"), next)
  }

  /** `log_addr`: an IPv4 address goes through its own round and inet_ntop;
      an IPv6 address is handed to `log_in6addr`, which ends in
      `log_sockaddr`; any other family yields "???" and touches no round. */
  function LogAddr(st: AddrRounds, af: int, ntopOk: bool, nameinfoOk: bool): (r: (AddrText, AddrRounds))
    requires ValidRounds(st)
    ensures ValidRounds(r.1)
    ensures r.0 == Fixed("???")
        <==> (af != LdpNames.AF_INET && af != LdpNames.AF_INET6) || (af == LdpNames.AF_INET && !ntopOk)
    ensures af != LdpNames.AF_INET && af != LdpNames.AF_INET6 ==> r.1 == st
    ensures af == LdpNames.AF_INET ==> r.1 == st.(addrRound := (st.addrRound + 1) % NUM_LOGS)
    ensures af == LdpNames.AF_INET && ntopOk ==> r.0 == AddrBuffer(r.1.addrRound)
    ensures af == LdpNames.AF_INET6
        ==> r.1.addrRound == st.addrRound && (r.0, r.1.sockRound) == LogSockaddr(st.sockRound, nameinfoOk)
  {
    if af == LdpNames.AF_INET then
      var next := AdvanceRound(st.addrRound);
      (if ntopOk then AddrBuffer(next) else Fixed("???"), st.(addrRound := next))
    else if af == LdpNames.AF_INET6 then
      var (text, next) := LogSockaddr(st.sockRound, nameinfoOk);
      (text, st.(sockRound := next))
    else
      (Fixed("???"), st)
  }
}

=== FILE: ldp_names.dfy ===
/** The name tables of the LDP log helpers (ldpd/log.c). Each is a switch
    from a protocol code to fixed text and is total: every code it does not
    list gets a fallback, either "UNKNOWN" or the code in hexadecimal.

    The numeric codes live in ldpd/ldp.h, ldpd/ldpd.h, ldpd/ldpe.h and the
    system socket headers, which are not part of this model. Message types,
    status codes and pseudowire types take the values of the LDP
    specification (RFC 5036, with RFC 4447, RFC 5561 and RFC 7552); address
    families those of a Linux build; the socket, neighbor-state,
    interface-state and interface-type codes, which no standard fixes, the
    values of ldpd's own enums and flags. The "UNKNOWN" and round-trip
    properties depend only on the codes of one switch being distinct;
    LabelAbortRequestIsHex depends on the value 0x0404, and the length
    bounds on the codes' 16- or 32-bit width. */
module LdpNames {
  import opened CTypes
  import opened Options
  import opened Digits

  const UNKNOWN: string := "UNKNOWN"

  /** `"[%0<width>x]"`: the hexadecimal fallback of `msg_name`,
      `status_code_name` (width 8) and `pw_type_name` (width 0, so no
      padding at all). */
  function BracketHex(code: nat, width: nat): (s: string)
    ensures |s| >= width + 2 && |s| >= 3
    ensures s[0] == '[' && s[|s| - 1] == ']'
  {
    "[" + Padded(code, width, 16) + "]"
  }

  function ParseBracketHex(s: string): Option<nat> {
    if |s| >= 3 && s[0] == '[' && s[|s| - 1] == ']' then Parse(s[1..|s| - 1], 16) else None
  }

  /** The fallback text starts with '[' and reads back as the code. */
  lemma BracketHexRoundTrip(code: nat, width: nat)
    ensures BracketHex(code, width)[0] == '['
    ensures ParseBracketHex(BracketHex(code, width)) == Some(code)
  {
    var s := BracketHex(code, width);
    assert s[1..|s| - 1] == Padded(code, width, 16);
    ParsePadded(code, width, 16);
  }

  /** A 32-bit code fills exactly eight hexadecimal digits, so the `%08x`
      fallback is ten characters and fits a 16-octet buffer. */
  lemma BracketHex8Length(code: uint32)
    ensures |BracketHex(code, 8)| == 10
  {
    assert Pow(16, 8) == 0x1_0000_0000;
    PaddedLength(code, 8, 16);
  }

  // ---------------------------------------------------------------------
  // af_name

  const AF_INET: int := 2
  const AF_INET6: int := 10
  const AF_MPLS: int := 28

  /** `af_name`: "UNKNOWN" exactly for the families it does not list. */
  function AfName(af: int): (name: string)
    ensures name == UNKNOWN <==> af !in {AF_INET, AF_INET6, AF_MPLS}
  {
    if af == AF_INET then "ipv4"
    else if af == AF_INET6 then "ipv6"
    else if af == AF_MPLS then "mpls"
    else UNKNOWN
  }

  /** "UNKNOWN" exactly for the unlisted families; listed ones get distinct names. */
  lemma AfNameSpec(a: int, b: int)
    ensures AfName(a) == UNKNOWN <==> a !in {AF_INET, AF_INET6, AF_MPLS}
    ensures AfName(a) == AfName(b) != UNKNOWN ==> a == b
  {
  }

  // ---------------------------------------------------------------------
  // socket_name

  /** `enum socket_type` numbers its members from 0. */
  const LDP_SOCKET_DISC: int := 0
  const LDP_SOCKET_EDISC: int := 1
  const LDP_SOCKET_SESSION: int := 2

  /** `socket_name`: "UNKNOWN" exactly for the types it does not list. */
  function SocketName(socketType: int): (name: string)
    ensures name == UNKNOWN <==> socketType !in {LDP_SOCKET_DISC, LDP_SOCKET_EDISC, LDP_SOCKET_SESSION}
  {
    if socketType == LDP_SOCKET_DISC then "discovery"
    else if socketType == LDP_SOCKET_EDISC then "extended discovery"
    else if socketType == LDP_SOCKET_SESSION then "session"
    else UNKNOWN
  }

  lemma SocketNameSpec(a: int, b: int)
    ensures SocketName(a) == UNKNOWN <==> a !in {LDP_SOCKET_DISC, LDP_SOCKET_EDISC, LDP_SOCKET_SESSION}
    ensures SocketName(a) == SocketName(b) != UNKNOWN ==> a == b
  {
  }

  // ---------------------------------------------------------------------
  // nbr_state_name

  const NBR_STA_PRESENT: int := 0x0001
  const NBR_STA_INITIAL: int := 0x0002
  const NBR_STA_OPENREC: int := 0x0004
  const NBR_STA_OPENSENT: int := 0x0008
  const NBR_STA_OPER: int := 0x0010

  /** `nbr_state_name`: "UNKNOWN" exactly for the states it does not list. */
  function NbrStateName(state: int): (name: string)
    ensures name == UNKNOWN
        <==> state !in {NBR_STA_PRESENT, NBR_STA_INITIAL, NBR_STA_OPENREC, NBR_STA_OPENSENT, NBR_STA_OPER}
  {
    if state == NBR_STA_PRESENT then "PRESENT"
    else if state == NBR_STA_INITIAL then "INITIALIZED"
    else if state == NBR_STA_OPENREC then "OPENREC"
    else if state == NBR_STA_OPENSENT then "OPENSENT"
    else if state == NBR_STA_OPER then "OPERATIONAL"
    else UNKNOWN
  }

  lemma NbrStateNameSpec(a: int, b: int)
    ensures NbrStateName(a) == UNKNOWN
        <==> a !in {NBR_STA_PRESENT, NBR_STA_INITIAL, NBR_STA_OPENREC, NBR_STA_OPENSENT, NBR_STA_OPER}
    ensures NbrStateName(a) == NbrStateName(b) != UNKNOWN ==> a == b
  {
  }

  // ---------------------------------------------------------------------
  // if_state_name

  const IF_STA_DOWN: int := 0x01
  const IF_STA_ACTIVE: int := 0x02

  /** `if_state_name`: "UNKNOWN" exactly for the states it does not list. */
  function IfStateName(state: int): (name: string)
    ensures name == UNKNOWN <==> state !in {IF_STA_DOWN, IF_STA_ACTIVE}
  {
    if state == IF_STA_DOWN then "DOWN"
    else if state == IF_STA_ACTIVE then "ACTIVE"
    else UNKNOWN
  }

  lemma IfStateNameSpec(a: int, b: int)
    ensures IfStateName(a) == UNKNOWN <==> a !in {IF_STA_DOWN, IF_STA_ACTIVE}
    ensures IfStateName(a) == IfStateName(b) != UNKNOWN ==> a == b
  {
  }

  // ---------------------------------------------------------------------
  // if_type_name

  /** `enum iface_type` numbers its members from 0. */
  const IF_TYPE_POINTOPOINT: int := 0
  const IF_TYPE_BROADCAST: int := 1

  /** `if_type_name`: the switch lists both members of the enum; the final
      "UNKNOWN" is reached exactly by the values outside the enum. */
  function IfTypeName(ifType: int): (name: string)
    ensures name == UNKNOWN <==> ifType !in {IF_TYPE_POINTOPOINT, IF_TYPE_BROADCAST}
  {
    if ifType == IF_TYPE_POINTOPOINT then "POINTOPOINT"
    else if ifType == IF_TYPE_BROADCAST then "BROADCAST"
    else UNKNOWN
  }

  lemma IfTypeNameSpec(a: int, b: int)
    ensures IfTypeName(a) == UNKNOWN <==> a !in {IF_TYPE_POINTOPOINT, IF_TYPE_BROADCAST}
    ensures IfTypeName(a) == IfTypeName(b) != UNKNOWN ==> a == b
  {
  }

  // ---------------------------------------------------------------------
  // msg_name

  const MSG_TYPE_NOTIFICATION: uint16 := 0x0001
  const MSG_TYPE_HELLO: uint16 := 0x0100
  const MSG_TYPE_INIT: uint16 := 0x0200
  const MSG_TYPE_KEEPALIVE: uint16 := 0x0201
  const MSG_TYPE_CAPABILITY: uint16 := 0x0202
  const MSG_TYPE_ADDR: uint16 := 0x0300
  const MSG_TYPE_ADDRWITHDRAW: uint16 := 0x0301
  const MSG_TYPE_LABELMAPPING: uint16 := 0x0400
  const MSG_TYPE_LABELREQUEST: uint16 := 0x0401
  const MSG_TYPE_LABELWITHDRAW: uint16 := 0x0402
  const MSG_TYPE_LABELRELEASE: uint16 := 0x0403
  const MSG_TYPE_LABELABORTREQ: uint16 := 0x0404

  /** The message types `msg_name` names; MSG_TYPE_LABELABORTREQ shares the
      `default:` arm and is therefore not among them. */
  const NAMED_MSG_TYPES: set<uint16> := {
    MSG_TYPE_NOTIFICATION, MSG_TYPE_HELLO, MSG_TYPE_INIT, MSG_TYPE_KEEPALIVE,
    MSG_TYPE_CAPABILITY, MSG_TYPE_ADDR, MSG_TYPE_ADDRWITHDRAW, MSG_TYPE_LABELMAPPING,
    MSG_TYPE_LABELREQUEST, MSG_TYPE_LABELWITHDRAW, MSG_TYPE_LABELRELEASE
  }

  /** `msg_name`: a named type gets its name; any other type, Label Abort
      Request included, gets `[%08x]`, ten characters, which fit the
      16-octet buffer. */
  function MsgName(msg: uint16): (name: string)
    ensures |name| >= 5
    ensures name[0] == '[' <==> msg !in NAMED_MSG_TYPES
    ensures msg !in NAMED_MSG_TYPES ==> |name| == 10
  {
    if msg == MSG_TYPE_NOTIFICATION then "notification"
    else if msg == MSG_TYPE_HELLO then "hello"
    else if msg == MSG_TYPE_INIT then "initialization"
    else if msg == MSG_TYPE_KEEPALIVE then "keepalive"
    else if msg == MSG_TYPE_CAPABILITY then "capability"
    else if msg == MSG_TYPE_ADDR then "address"
    else if msg == MSG_TYPE_ADDRWITHDRAW then "address withdraw"
    else if msg == MSG_TYPE_LABELMAPPING then "label mapping"
    else if msg == MSG_TYPE_LABELREQUEST then "label request"
    else if msg == MSG_TYPE_LABELWITHDRAW then "label withdraw"
    else if msg == MSG_TYPE_LABELRELEASE then "label release"
    else
      BracketHex8Length(msg);
      BracketHex(msg, 8)
  }

  /** Reads a `msg_name` result back to the message type. */
  function ParseMsgName(s: string): Option<int> {
    if s == "notification" then Some(MSG_TYPE_NOTIFICATION)
    else if s == "hello" then Some(MSG_TYPE_HELLO)
    else if s == "initialization" then Some(MSG_TYPE_INIT)
    else if s == "keepalive" then Some(MSG_TYPE_KEEPALIVE)
    else if s == "capability" then Some(MSG_TYPE_CAPABILITY)
    else if s == "address" then Some(MSG_TYPE_ADDR)
    else if s == "address withdraw" then Some(MSG_TYPE_ADDRWITHDRAW)
    else if s == "label mapping" then Some(MSG_TYPE_LABELMAPPING)
    else if s == "label request" then Some(MSG_TYPE_LABELREQUEST)
    else if s == "label withdraw" then Some(MSG_TYPE_LABELWITHDRAW)
    else if s == "label release" then Some(MSG_TYPE_LABELRELEASE)
    else ParseBracketHex(s)
  }

  /** The hexadecimal form appears exactly for the unnamed types, is ten
      characters long, and every type is recovered from its text, so no two
      message types share a rendering. */
  lemma MsgNameSpec(msg: uint16)
    ensures MsgName(msg)[0] == '[' <==> msg !in NAMED_MSG_TYPES
    ensures msg !in NAMED_MSG_TYPES ==> |MsgName(msg)| == 10
    ensures ParseMsgName(MsgName(msg)) == Some(msg)
  {
    if msg !in NAMED_MSG_TYPES {
      BracketHexRoundTrip(msg, 8);
      BracketHex8Length(msg);
    }
  }

  /** MSG_TYPE_LABELABORTREQ falls through to the hexadecimal form. */
  lemma LabelAbortRequestIsHex()
    ensures MsgName(MSG_TYPE_LABELABORTREQ) == "[00000404]"
  {
  }

  // ---------------------------------------------------------------------
  // status_code_name

  const S_SUCCESS: uint32 := 0x0000_0000
  const S_BAD_LDP_ID: uint32 := 0x8000_0001
  const S_BAD_PROTO_VER: uint32 := 0x8000_0002
  const S_BAD_PDU_LEN: uint32 := 0x8000_0003
  const S_UNKNOWN_MSG: uint32 := 0x0000_0004
  const S_BAD_MSG_LEN: uint32 := 0x8000_0005
  const S_UNKNOWN_TLV: uint32 := 0x0000_0006
  const S_BAD_TLV_LEN: uint32 := 0x8000_0007
  const S_BAD_TLV_VAL: uint32 := 0x8000_0008
  const S_HOLDTIME_EXP: uint32 := 0x8000_0009
  const S_SHUTDOWN: uint32 := 0x8000_000A
  const S_LOOP_DETECTED: uint32 := 0x0000_000B
  const S_UNKNOWN_FEC: uint32 := 0x0000_000C
  const S_NO_ROUTE: uint32 := 0x0000_000D
  const S_NO_LABEL_RES: uint32 := 0x0000_000E
  const S_AVAILABLE: uint32 := 0x0000_000F
  const S_NO_HELLO: uint32 := 0x8000_0010
  const S_PARM_ADV_MODE: uint32 := 0x8000_0011
  const S_MAX_PDU_LEN: uint32 := 0x8000_0012
  const S_PARM_L_RANGE: uint32 := 0x8000_0013
  const S_KEEPALIVE_TMR: uint32 := 0x8000_0014
  const S_LAB_REQ_ABRT: uint32 := 0x0000_0015
  const S_MISS_MSG: uint32 := 0x0000_0016
  const S_UNSUP_ADDR: uint32 := 0x0000_0017
  const S_KEEPALIVE_BAD: uint32 := 0x8000_0018
  const S_INTERN_ERR: uint32 := 0x8000_0019
  const S_ILLEGAL_CBIT: uint32 := 0x0000_0024
  const S_WRONG_CBIT: uint32 := 0x0000_0025
  const S_INCPT_BITRATE: uint32 := 0x0000_0026
  const S_CEP_MISCONF: uint32 := 0x0000_0027
  const S_PW_STATUS: uint32 := 0x0000_0028
  const S_UNASSIGN_TAI: uint32 := 0x0000_0029
  const S_MISCONF_ERR: uint32 := 0x0000_002A
  const S_WITHDRAW_MTHD: uint32 := 0x0000_002B
  const S_UNSSUPORTDCAP: uint32 := 0x0000_002E
  const S_TRANS_MISMTCH: uint32 := 0x8000_0032
  const S_DS_NONCMPLNCE: uint32 := 0x8000_0033

  const NAMED_STATUS_CODES: set<uint32> := {
      S_SUCCESS, S_BAD_LDP_ID, S_BAD_PROTO_VER, S_BAD_PDU_LEN,
      S_UNKNOWN_MSG, S_BAD_MSG_LEN, S_UNKNOWN_TLV, S_BAD_TLV_LEN,
      S_BAD_TLV_VAL, S_HOLDTIME_EXP, S_SHUTDOWN, S_LOOP_DETECTED,
      S_UNKNOWN_FEC, S_NO_ROUTE, S_NO_LABEL_RES, S_AVAILABLE,
      S_NO_HELLO, S_PARM_ADV_MODE, S_MAX_PDU_LEN, S_PARM_L_RANGE,
      S_KEEPALIVE_TMR, S_LAB_REQ_ABRT, S_MISS_MSG, S_UNSUP_ADDR,
      S_KEEPALIVE_BAD, S_INTERN_ERR, S_ILLEGAL_CBIT, S_WRONG_CBIT,
      S_INCPT_BITRATE, S_CEP_MISCONF, S_PW_STATUS, S_UNASSIGN_TAI,
      S_MISCONF_ERR, S_WITHDRAW_MTHD, S_UNSSUPORTDCAP, S_TRANS_MISMTCH,
      S_DS_NONCMPLNCE
  }

  /** `status_code_name`: the switch over the named codes; any other code
      is shown as `[%08x]`, ten characters, which fit the 16-octet buffer. */
  function StatusCodeName(status: uint32): (name: string)
    ensures |name| >= 7
    ensures status !in NAMED_STATUS_CODES ==> |name| == 10 && name[0] == '['
  {
    if status == S_SUCCESS then "Success"
    else if status == S_BAD_LDP_ID then "Bad LDP Identifier"
    else if status == S_BAD_PROTO_VER then "Bad Protocol Version"
    else if status == S_BAD_PDU_LEN then "Bad PDU Length"
    else if status == S_UNKNOWN_MSG then "Unknown Message Type"
    else if status == S_BAD_MSG_LEN then "Bad Message Length"
    else if status == S_UNKNOWN_TLV then "Unknown TLV"
    else if status == S_BAD_TLV_LEN then "Bad TLV Length"
    else if status == S_BAD_TLV_VAL then "Malformed TLV Value"
    else if status == S_HOLDTIME_EXP then "Hold Timer Expired"
    else if status == S_SHUTDOWN then "Shutdown"
    else if status == S_LOOP_DETECTED then "Loop Detected"
    else if status == S_UNKNOWN_FEC then "Unknown FEC"
    else if status == S_NO_ROUTE then "No Route"
    else if status == S_NO_LABEL_RES then "No Label Resources"
    else if status == S_AVAILABLE then "Label Resources Available"
    else if status == S_NO_HELLO then "Session Rejected, No Hello"
    else if status == S_PARM_ADV_MODE then "Rejected Advertisement Mode Parameter"
    else if status == S_MAX_PDU_LEN then "Rejected Max PDU Length Parameter"
    else if status == S_PARM_L_RANGE then "Rejected Label Range Parameter"
    else if status == S_KEEPALIVE_TMR then "KeepAlive Timer Expired"
    else if status == S_LAB_REQ_ABRT then "Label Request Aborted"
    else if status == S_MISS_MSG then "Missing Message Parameters"
    else if status == S_UNSUP_ADDR then "Unsupported Address Family"
    else if status == S_KEEPALIVE_BAD then "Bad KeepAlive Time"
    else if status == S_INTERN_ERR then "Internal Error"
    else if status == S_ILLEGAL_CBIT then "Illegal C-Bit"
    else if status == S_WRONG_CBIT then "Wrong C-Bit"
    else if status == S_INCPT_BITRATE then "Incompatible bit-rate"
    else if status == S_CEP_MISCONF then "CEP-TDM mis-configuration"
    else if status == S_PW_STATUS then "PW Status"
    else if status == S_UNASSIGN_TAI then "Unassigned/Unrecognized TAI"
    else if status == S_MISCONF_ERR then "Generic Misconfiguration Error"
    else if status == S_WITHDRAW_MTHD then "Label Withdraw PW Status Method"
    else if status == S_UNSSUPORTDCAP then "Unsupported Capability"
    else if status == S_TRANS_MISMTCH then "Transport Connection Mismatch"
    else if status == S_DS_NONCMPLNCE then "Dual-Stack Noncompliance"
    else
      BracketHex8Length(status);
      BracketHex(status, 8)
  }

  /** The hexadecimal form appears exactly for the unnamed codes, is ten
      characters long and reads back as the code. */
  lemma StatusCodeNameSpec(status: uint32)
    ensures StatusCodeName(status)[0] == '[' <==> status !in NAMED_STATUS_CODES
    ensures status !in NAMED_STATUS_CODES ==> |StatusCodeName(status)| == 10
    ensures status !in NAMED_STATUS_CODES ==> ParseBracketHex(StatusCodeName(status)) == Some(status)
  {
    if status in NAMED_STATUS_CODES {
      NamedStatusText(status);
    } else {
      BracketHexRoundTrip(status, 8);
      BracketHex8Length(status);
    }
  }

  /** The length, fifth character and last character of a status name:
      enough to tell the 37 names of the switch apart. */
  function StatusNameKey(s: string): (int, char, char)
    requires |s| >= 5
  {
    (|s|, s[4], s[|s| - 1])
  }

  /** The named status whose text has the given key. */
  function StatusOfKey(key: (int, char, char)): Option<uint32> {
    if key == (7, 'e', 's') then Some(S_SUCCESS)
    else if key == (18, 'L', 'r') then Some(S_BAD_LDP_ID)
    else if key == (20, 'P', 'n') then Some(S_BAD_PROTO_VER)
    else if key == (14, 'P', 'h') then Some(S_BAD_PDU_LEN)
    else if key == (20, 'o', 'e') then Some(S_UNKNOWN_MSG)
    else if key == (18, 'M', 'h') then Some(S_BAD_MSG_LEN)
    else if key == (11, 'o', 'V') then Some(S_UNKNOWN_TLV)
    else if key == (14, 'T', 'h') then Some(S_BAD_TLV_LEN)
    else if key == (19, 'o', 'e') then Some(S_BAD_TLV_VAL)
    else if key == (18, ' ', 'd') then Some(S_HOLDTIME_EXP)
    else if key == (8, 'd', 'n') then Some(S_SHUTDOWN)
    else if key == (13, ' ', 'd') then Some(S_LOOP_DETECTED)
    else if key == (11, 'o', 'C') then Some(S_UNKNOWN_FEC)
    else if key == (8, 'o', 'e') then Some(S_NO_ROUTE)
    else if key == (18, 'a', 's') then Some(S_NO_LABEL_RES)
    else if key == (25, 'l', 'e') then Some(S_AVAILABLE)
    else if key == (26, 'i', 'o') then Some(S_NO_HELLO)
    else if key == (37, 'c', 'r') then Some(S_PARM_ADV_MODE)
    else if key == (33, 'c', 'r') then Some(S_MAX_PDU_LEN)
    else if key == (30, 'c', 'r') then Some(S_PARM_L_RANGE)
    else if key == (23, 'A', 'd') then Some(S_KEEPALIVE_TMR)
    else if key == (21, 'l', 'd') then Some(S_LAB_REQ_ABRT)
    else if key == (26, 'i', 's') then Some(S_MISS_MSG)
    else if key == (26, 'p', 'y') then Some(S_UNSUP_ADDR)
    else if key == (18, 'K', 'e') then Some(S_KEEPALIVE_BAD)
    else if key == (14, 'r', 'r') then Some(S_INTERN_ERR)
    else if key == (13, 'g', 't') then Some(S_ILLEGAL_CBIT)
    else if key == (11, 'g', 't') then Some(S_WRONG_CBIT)
    else if key == (21, 'm', 'e') then Some(S_INCPT_BITRATE)
    else if key == (25, 'T', 'n') then Some(S_CEP_MISCONF)
    else if key == (9, 't', 's') then Some(S_PW_STATUS)
    else if key == (27, 's', 'I') then Some(S_UNASSIGN_TAI)
    else if key == (30, 'r', 'r') then Some(S_MISCONF_ERR)
    else if key == (31, 'l', 'd') then Some(S_WITHDRAW_MTHD)
    else if key == (22, 'p', 'y') then Some(S_UNSSUPORTDCAP)
    else if key == (29, 's', 'h') then Some(S_TRANS_MISMTCH)
    else if key == (24, '-', 'e') then Some(S_DS_NONCMPLNCE)
    else None
  }

  /** A left inverse of `status_code_name`, not a reader of arbitrary
      text: a name is recognised by its key alone (so unrelated strings with
      the same key map to a code too), the hexadecimal form by its digits
      (its key ends in ']', which no name's does). */
  function ParseStatusCodeName(s: string): Option<uint32> {
    if |s| >= 5 && StatusOfKey(StatusNameKey(s)).Some? then StatusOfKey(StatusNameKey(s))
    else
      match ParseBracketHex(s)
      case Some(n) => if n < 0x1_0000_0000 then Some(n) else None
      case None => None
  }

  /** Every status code is recovered from its text, so no two codes share
      a text. */
  lemma StatusCodeNameRoundTrip(status: uint32)
    ensures ParseStatusCodeName(StatusCodeName(status)) == Some(status)
  {
    if status in NAMED_STATUS_CODES {
      NamedStatusText(status);
    } else {
      StatusCodeNameSpec(status);
      assert StatusCodeName(status)[|StatusCodeName(status)| - 1] == ']';
    }
  }

  /** A named code's text does not start with '[' and its key leads back to
      the code. Evaluating the whole 37-way switch in one proof is beyond
      the solver's budget, so NamedStatusText1 to NamedStatusText13 each
      take three codes of the switch in order and state, per code, its text
      and that text's key. */
  lemma NamedStatusText(status: uint32)
    requires status in NAMED_STATUS_CODES
    ensures StatusCodeName(status)[0] != '['
    ensures StatusOfKey(StatusNameKey(StatusCodeName(status))) == Some(status)
  {
    if status in {S_SUCCESS, S_BAD_LDP_ID, S_BAD_PROTO_VER} {
      NamedStatusText1(status);
    } else if status in {S_BAD_PDU_LEN, S_UNKNOWN_MSG, S_BAD_MSG_LEN} {
      NamedStatusText2(status);
    } else if status in {S_UNKNOWN_TLV, S_BAD_TLV_LEN, S_BAD_TLV_VAL} {
      NamedStatusText3(status);
    } else if status in {S_HOLDTIME_EXP, S_SHUTDOWN, S_LOOP_DETECTED} {
      NamedStatusText4(status);
    } else if status in {S_UNKNOWN_FEC, S_NO_ROUTE, S_NO_LABEL_RES} {
      NamedStatusText5(status);
    } else if status in {S_AVAILABLE, S_NO_HELLO, S_PARM_ADV_MODE} {
      NamedStatusText6(status);
    } else if status in {S_MAX_PDU_LEN, S_PARM_L_RANGE, S_KEEPALIVE_TMR} {
      NamedStatusText7(status);
    } else if status in {S_LAB_REQ_ABRT, S_MISS_MSG, S_UNSUP_ADDR} {
      NamedStatusText8(status);
    } else if status in {S_KEEPALIVE_BAD, S_INTERN_ERR, S_ILLEGAL_CBIT} {
      NamedStatusText9(status);
    } else if status in {S_WRONG_CBIT, S_INCPT_BITRATE, S_CEP_MISCONF} {
      NamedStatusText10(status);
    } else if status in {S_PW_STATUS, S_UNASSIGN_TAI, S_MISCONF_ERR} {
      NamedStatusText11(status);
    } else if status in {S_WITHDRAW_MTHD, S_UNSSUPORTDCAP, S_TRANS_MISMTCH} {
      NamedStatusText12(status);
    } else {
      NamedStatusText13(status);
    }
  }

  lemma NamedStatusText1(status: uint32)
    requires status in {S_SUCCESS, S_BAD_LDP_ID, S_BAD_PROTO_VER}
    ensures StatusCodeName(status)[0] != '['
    ensures StatusOfKey(StatusNameKey(StatusCodeName(status))) == Some(status)
  {
    if status == S_SUCCESS {
      assert StatusCodeName(status) == "Success";
      assert StatusNameKey("Success") == (7, 'e', 's');
    } else if status == S_BAD_LDP_ID {
      assert StatusCodeName(status) == "Bad LDP Identifier";
      assert StatusNameKey("Bad LDP Identifier") == (18, 'L', 'r');
    } else {
      assert StatusCodeName(status) == "Bad Protocol Version";
      assert StatusNameKey("Bad Protocol Version") == (20, 'P', 'n');
    }
  }

  lemma NamedStatusText2(status: uint32)
    requires status in {S_BAD_PDU_LEN, S_UNKNOWN_MSG, S_BAD_MSG_LEN}
    ensures StatusCodeName(status)[0] != '['
    ensures StatusOfKey(StatusNameKey(StatusCodeName(status))) == Some(status)
  {
    if status == S_BAD_PDU_LEN {
      assert StatusCodeName(status) == "Bad PDU Length";
      assert StatusNameKey("Bad PDU Length") == (14, 'P', 'h');
    } else if status == S_UNKNOWN_MSG {
      assert StatusCodeName(status) == "Unknown Message Type";
      assert StatusNameKey("Unknown Message Type") == (20, 'o', 'e');
    } else {
      assert StatusCodeName(status) == "Bad Message Length";
      assert StatusNameKey("Bad Message Length") == (18, 'M', 'h');
    }
  }

  lemma NamedStatusText3(status: uint32)
    requires status in {S_UNKNOWN_TLV, S_BAD_TLV_LEN, S_BAD_TLV_VAL}
    ensures StatusCodeName(status)[0] != '['
    ensures StatusOfKey(StatusNameKey(StatusCodeName(status))) == Some(status)
  {
    if status == S_UNKNOWN_TLV {
      assert StatusCodeName(status) == "Unknown TLV";
      assert StatusNameKey("Unknown TLV") == (11, 'o', 'V');
    } else if status == S_BAD_TLV_LEN {
      assert StatusCodeName(status) == "Bad TLV Length";
      assert StatusNameKey("Bad TLV Length") == (14, 'T', 'h');
    } else {
      assert StatusCodeName(status) == "Malformed TLV Value";
      assert StatusNameKey("Malformed TLV Value") == (19, 'o', 'e');
    }
  }

  lemma NamedStatusText4(status: uint32)
    requires status in {S_HOLDTIME_EXP, S_SHUTDOWN, S_LOOP_DETECTED}
    ensures StatusCodeName(status)[0] != '['
    ensures StatusOfKey(StatusNameKey(StatusCodeName(status))) == Some(status)
  {
    if status == S_HOLDTIME_EXP {
      assert StatusCodeName(status) == "Hold Timer Expired";
      assert StatusNameKey("Hold Timer Expired") == (18, ' ', 'd');
    } else if status == S_SHUTDOWN {
      assert StatusCodeName(status) == "Shutdown";
      assert StatusNameKey("Shutdown") == (8, 'd', 'n');
    } else {
      assert StatusCodeName(status) == "Loop Detected";
      assert StatusNameKey("Loop Detected") == (13, ' ', 'd');
    }
  }

  lemma NamedStatusText5(status: uint32)
    requires status in {S_UNKNOWN_FEC, S_NO_ROUTE, S_NO_LABEL_RES}
    ensures StatusCodeName(status)[0] != '['
    ensures StatusOfKey(StatusNameKey(StatusCodeName(status))) == Some(status)
  {
    if status == S_UNKNOWN_FEC {
      assert StatusCodeName(status) == "Unknown FEC";
      assert StatusNameKey("Unknown FEC") == (11, 'o', 'C');
    } else if status == S_NO_ROUTE {
      assert StatusCodeName(status) == "No Route";
      assert StatusNameKey("No Route") == (8, 'o', 'e');
    } else {
      assert StatusCodeName(status) == "No Label Resources";
      assert StatusNameKey("No Label Resources") == (18, 'a', 's');
    }
  }

  lemma NamedStatusText6(status: uint32)
    requires status in {S_AVAILABLE, S_NO_HELLO, S_PARM_ADV_MODE}
    ensures StatusCodeName(status)[0] != '['
    ensures StatusOfKey(StatusNameKey(StatusCodeName(status))) == Some(status)
  {
    if status == S_AVAILABLE {
      assert StatusCodeName(status) == "Label Resources Available";
      assert StatusNameKey("Label Resources Available") == (25, 'l', 'e');
    } else if status == S_NO_HELLO {
      assert StatusCodeName(status) == "Session Rejected, No Hello";
      assert StatusNameKey("Session Rejected, No Hello") == (26, 'i', 'o');
    } else {
      assert StatusCodeName(status) == "Rejected Advertisement Mode Parameter";
      assert StatusNameKey("Rejected Advertisement Mode Parameter") == (37, 'c', 'r');
    }
  }

  lemma NamedStatusText7(status: uint32)
    requires status in {S_MAX_PDU_LEN, S_PARM_L_RANGE, S_KEEPALIVE_TMR}
    ensures StatusCodeName(status)[0] != '['
    ensures StatusOfKey(StatusNameKey(StatusCodeName(status))) == Some(status)
  {
    if status == S_MAX_PDU_LEN {
      assert StatusCodeName(status) == "Rejected Max PDU Length Parameter";
      assert StatusNameKey("Rejected Max PDU Length Parameter") == (33, 'c', 'r');
    } else if status == S_PARM_L_RANGE {
      assert StatusCodeName(status) == "Rejected Label Range Parameter";
      assert StatusNameKey("Rejected Label Range Parameter") == (30, 'c', 'r');
    } else {
      assert StatusCodeName(status) == "KeepAlive Timer Expired";
      assert StatusNameKey("KeepAlive Timer Expired") == (23, 'A', 'd');
    }
  }

  lemma NamedStatusText8(status: uint32)
    requires status in {S_LAB_REQ_ABRT, S_MISS_MSG, S_UNSUP_ADDR}
    ensures StatusCodeName(status)[0] != '['
    ensures StatusOfKey(StatusNameKey(StatusCodeName(status))) == Some(status)
  {
    if status == S_LAB_REQ_ABRT {
      assert StatusCodeName(status) == "Label Request Aborted";
      assert StatusNameKey("Label Request Aborted") == (21, 'l', 'd');
    } else if status == S_MISS_MSG {
      assert StatusCodeName(status) == "Missing Message Parameters";
      assert StatusNameKey("Missing Message Parameters") == (26, 'i', 's');
    } else {
      assert StatusCodeName(status) == "Unsupported Address Family";
      assert StatusNameKey("Unsupported Address Family") == (26, 'p', 'y');
    }
  }

  lemma NamedStatusText9(status: uint32)
    requires status in {S_KEEPALIVE_BAD, S_INTERN_ERR, S_ILLEGAL_CBIT}
    ensures StatusCodeName(status)[0] != '['
    ensures StatusOfKey(StatusNameKey(StatusCodeName(status))) == Some(status)
  {
    if status == S_KEEPALIVE_BAD {
      assert StatusCodeName(status) == "Bad KeepAlive Time";
      assert StatusNameKey("Bad KeepAlive Time") == (18, 'K', 'e');
    } else if status == S_INTERN_ERR {
      assert StatusCodeName(status) == "Internal Error";
      assert StatusNameKey("Internal Error") == (14, 'r', 'r');
    } else {
      assert StatusCodeName(status) == "Illegal C-Bit";
      assert StatusNameKey("Illegal C-Bit") == (13, 'g', 't');
    }
  }

  lemma NamedStatusText10(status: uint32)
    requires status in {S_WRONG_CBIT, S_INCPT_BITRATE, S_CEP_MISCONF}
    ensures StatusCodeName(status)[0] != '['
    ensures StatusOfKey(StatusNameKey(StatusCodeName(status))) == Some(status)
  {
    if status == S_WRONG_CBIT {
      assert StatusCodeName(status) == "Wrong C-Bit";
      assert StatusNameKey("Wrong C-Bit") == (11, 'g', 't');
    } else if status == S_INCPT_BITRATE {
      assert StatusCodeName(status) == "Incompatible bit-rate";
      assert StatusNameKey("Incompatible bit-rate") == (21, 'm', 'e');
    } else {
      assert StatusCodeName(status) == "CEP-TDM mis-configuration";
      assert StatusNameKey("CEP-TDM mis-configuration") == (25, 'T', 'n');
    }
  }

  lemma NamedStatusText11(status: uint32)
    requires status in {S_PW_STATUS, S_UNASSIGN_TAI, S_MISCONF_ERR}
    ensures StatusCodeName(status)[0] != '['
    ensures StatusOfKey(StatusNameKey(StatusCodeName(status))) == Some(status)
  {
    if status == S_PW_STATUS {
      assert StatusCodeName(status) == "PW Status";
      assert StatusNameKey("PW Status") == (9, 't', 's');
    } else if status == S_UNASSIGN_TAI {
      assert StatusCodeName(status) == "Unassigned/Unrecognized TAI";
      assert StatusNameKey("Unassigned/Unrecognized TAI") == (27, 's', 'I');
    } else {
      assert StatusCodeName(status) == "Generic Misconfiguration Error";
      assert StatusNameKey("Generic Misconfiguration Error") == (30, 'r', 'r');
    }
  }

  lemma NamedStatusText12(status: uint32)
    requires status in {S_WITHDRAW_MTHD, S_UNSSUPORTDCAP, S_TRANS_MISMTCH}
    ensures StatusCodeName(status)[0] != '['
    ensures StatusOfKey(StatusNameKey(StatusCodeName(status))) == Some(status)
  {
    if status == S_WITHDRAW_MTHD {
      assert StatusCodeName(status) == "Label Withdraw PW Status Method";
      assert StatusNameKey("Label Withdraw PW Status Method") == (31, 'l', 'd');
    } else if status == S_UNSSUPORTDCAP {
      assert StatusCodeName(status) == "Unsupported Capability";
      assert StatusNameKey("Unsupported Capability") == (22, 'p', 'y');
    } else {
      assert StatusCodeName(status) == "Transport Connection Mismatch";
      assert StatusNameKey("Transport Connection Mismatch") == (29, 's', 'h');
    }
  }

  lemma NamedStatusText13(status: uint32)
    requires status in {S_DS_NONCMPLNCE}
    ensures StatusCodeName(status)[0] != '['
    ensures StatusOfKey(StatusNameKey(StatusCodeName(status))) == Some(status)
  {
    assert StatusCodeName(status) == "Dual-Stack Noncompliance";
    assert StatusNameKey("Dual-Stack Noncompliance") == (24, '-', 'e');
  }

  // ---------------------------------------------------------------------
  // pw_type_name

  const PW_TYPE_ETHERNET_TAGGED: uint16 := 0x0004
  const PW_TYPE_ETHERNET: uint16 := 0x0005

  /** `pw_type_name`: the two Ethernet types by name, any other as `[%0x]`,
      at most four hexadecimal digits; both names and fallback fit the 64-octet buffer. */
  function PwTypeName(pwType: uint16): (name: string)
    ensures 3 <= |name| <= 10 < 64
    ensures name[0] == '[' <==> pwType !in {PW_TYPE_ETHERNET_TAGGED, PW_TYPE_ETHERNET}
  {
    if pwType == PW_TYPE_ETHERNET_TAGGED then "Eth Tagged"
    else if pwType == PW_TYPE_ETHERNET then "Ethernet"
    else
      assert Pow(16, 4) == 0x1_0000;
      RenderLength(pwType, 16, 4);
      assert Padded(pwType, 0, 16) == Render(pwType, 16);
      BracketHex(pwType, 0)
  }

  function ParsePwTypeName(s: string): Option<int> {
    if s == "Eth Tagged" then Some(PW_TYPE_ETHERNET_TAGGED)
    else if s == "Ethernet" then Some(PW_TYPE_ETHERNET)
    else ParseBracketHex(s)
  }

  /** `%0x` pads to no width: the fallback holds the minimal hexadecimal
      digits, with no leading zero except for type 0, and every type is
      recovered from its text. */
  lemma PwTypeNameSpec(pwType: uint16)
    ensures PwTypeName(pwType)[0] == '[' <==> pwType !in {PW_TYPE_ETHERNET_TAGGED, PW_TYPE_ETHERNET}
    ensures pwType !in {PW_TYPE_ETHERNET_TAGGED, PW_TYPE_ETHERNET} && pwType != 0 ==> PwTypeName(pwType)[1] != '0'
    ensures ParsePwTypeName(PwTypeName(pwType)) == Some(pwType)
  {
    if pwType !in {PW_TYPE_ETHERNET_TAGGED, PW_TYPE_ETHERNET} {
      BracketHexRoundTrip(pwType, 0);
    }
  }
}

=== FILE: options.dfy ===
/** The optional value used for lookups and parsers that can fail. */
module Options {

  datatype Option<+T> = None | Some(value: T)
}

=== FILE: ring.dfy ===
/** The static ring indices of the LDP log helpers (ldpd/log.c). Each helper
    owns a ring of scratch buffers and a static index into it, so that up
    to four results can be alive at once before a buffer is reused. */
module LogRing {

  /** Buffers in the ring of `log_label` and of `log_time`. */
  const TF_BUFS: nat := 4

  /** Buffers in the ring of `log_sockaddr` and of `log_addr`. */
  const NUM_LOGS: nat := 4

  /** `buf = tfbuf[idx++]; if (idx == TF_BUFS) idx = 0;` in `log_label` and
      `log_time`: the buffer used is the current index, and the index moves
      one step round the ring. Returns (buffer used, next index). */
  function TakeSlot(idx: int): (r: (nat, int))
    requires 0 <= idx < TF_BUFS
    ensures r.0 < TF_BUFS && 0 <= r.1 < TF_BUFS
    ensures r.0 == idx && r.1 == (idx + 1) % TF_BUFS
  {
    var next := idx + 1;
    (idx, if next == TF_BUFS then 0 else next)
  }

  /** `round = (round + 1) % NUM_LOGS;` in `log_sockaddr` and `log_addr`:
      the round moves first and the new round names the buffer used. */
  function AdvanceRound(round: int): (r: nat)
    requires 0 <= round < NUM_LOGS
    ensures r < NUM_LOGS && r != round
    ensures r == (if round == NUM_LOGS - 1 then 0 else round + 1)
  {
    (round + 1) % NUM_LOGS
  }

  /** Buffers used by `k` consecutive `log_label` (or `log_time`) calls. */
  function SlotsTaken(idx: int, k: nat): (slots: seq<nat>)
    requires 0 <= idx < TF_BUFS
    ensures |slots| == k
    ensures forall i :: 0 <= i < k ==> slots[i] < TF_BUFS
    ensures k > 0 ==> slots[0] == idx
    decreases k
  {
    if k == 0 then []
    else
      var (slot, next) := TakeSlot(idx);
      [slot] + SlotsTaken(next, k - 1)
  }

  /** Buffers used by `k` consecutive IPv4 `log_addr` calls, or by `k`
      consecutive `log_sockaddr` calls. Each of the two rings has its own
      round, so a run that mixes address families is not one such run. */
  function RoundsUsed(round: int, k: nat): (rounds: seq<nat>)
    requires 0 <= round < NUM_LOGS
    ensures |rounds| == k
    ensures forall i :: 0 <= i < k ==> rounds[i] < NUM_LOGS
    ensures k > 0 ==> rounds[0] == (round + 1) % NUM_LOGS
    decreases k
  {
    if k == 0 then []
    else
      var next := AdvanceRound(round);
      [next] + RoundsUsed(next, k - 1)
  }

  /** The i-th of consecutive calls uses buffer (idx + i) mod TF_BUFS. */
  lemma {:induction false} SlotsTakenCycle(idx: int, k: nat)
    requires 0 <= idx < TF_BUFS
    ensures forall i :: 0 <= i < k ==> SlotsTaken(idx, k)[i] == (idx + i) % TF_BUFS
    decreases k
  {
    if k > 0 {
      var next := TakeSlot(idx).1;
      SlotsTakenCycle(next, k - 1);
      forall i | 0 <= i < k
        ensures SlotsTaken(idx, k)[i] == (idx + i) % TF_BUFS
      {
        if i > 0 {
          assert SlotsTaken(idx, k)[i] == SlotsTaken(next, k - 1)[i - 1];
          assert next == (idx + 1) % TF_BUFS;
        }
      }
    }
  }

  /** The i-th of consecutive calls uses buffer (round + 1 + i) mod NUM_LOGS. */
  lemma {:induction false} RoundsUsedCycle(round: int, k: nat)
    requires 0 <= round < NUM_LOGS
    ensures forall i :: 0 <= i < k ==> RoundsUsed(round, k)[i] == (round + 1 + i) % NUM_LOGS
    decreases k
  {
    if k > 0 {
      var next := AdvanceRound(round);
      RoundsUsedCycle(next, k - 1);
      forall i | 0 <= i < k
        ensures RoundsUsed(round, k)[i] == (round + 1 + i) % NUM_LOGS
      {
        if i > 0 {
          assert RoundsUsed(round, k)[i] == RoundsUsed(next, k - 1)[i - 1];
        }
      }
    }
  }

  /** Four consecutive `log_label`/`log_time` results live in four distinct
      buffers; the fifth call overwrites the first one's buffer. */
  lemma FourSlotsThenReuse(idx: int)
    requires 0 <= idx < TF_BUFS
    ensures forall i, j :: 0 <= i < j < 4 ==> SlotsTaken(idx, 5)[i] != SlotsTaken(idx, 5)[j]
    ensures SlotsTaken(idx, 5)[4] == SlotsTaken(idx, 5)[0]
  {
    SlotsTakenCycle(idx, 5);
  }

  /** The same for consecutive IPv4 `log_addr` calls, or consecutive
      `log_sockaddr` calls. */
  lemma FourRoundsThenReuse(round: int)
    requires 0 <= round < NUM_LOGS
    ensures forall i, j :: 0 <= i < j < 4 ==> RoundsUsed(round, 5)[i] != RoundsUsed(round, 5)[j]
    ensures RoundsUsed(round, 5)[4] == RoundsUsed(round, 5)[0]
  {
    RoundsUsedCycle(round, 5);
  }
}
